=== FILE: README.md ===
# Hrenomantika: automatic snapshots of a folder into a git repository

Hrenomantika is a small WPF tool. It watches a folder and, once a minute, commits
whatever changed into a git repository kept in that folder. It lists every branch
with its commits. Picking a commit and pressing the checkout button switches the
folder to that commit. A commit that is not a branch tip gets a new branch,
named by a running counter ("2", "3", …).

This Dafny project models the window's logic in `Hrenomantika.Ui/MainWindow.xaml.cs`
as pure functions over an immutable repository value:

- `wrappers.dfy` (`Wrappers`): `Option` and `Result`.
- `int32.dfy` (`Int32`): C# `int` wrap-around; `Convert.ToInt32(string)` as a
  parser with format and overflow errors; `int.ToString()` as a printer; the
  print/parse round trip.
- `repository.dfy` (`Repository`): commits with a parent link, branches, the
  head, the index and the working directory, as the window sees them through
  LibGit2Sharp. Branch creation (`InsertBranch`) and tip moves (`SetTip`).
- `branch_counter.dfy` (`BranchCounter`): `LoadBrunches`, the counter that
  names the next automatic branch.
- `history.dfy` (`History`): `LoadCommits` and `PrintBrunch`, the listing.
- `checkout.dfy` (`Checkout`): `LoadCommit`, the checkout of a picked commit.
- `snapshot.dfy` (`Snapshot`): `Schedule`, the minutely snapshot, and
  `EnsureGitIsInit`, the initial commit.
- `session.dfy` (`Session`): the window as a state machine. It covers the
  Start/Stop button, the job run and the checkout click, each followed by the
  reload of the listing.

Things the window gets from the store or the clock are parameters:

- the id of a new commit (`sha`);
- the date-and-time message of a snapshot;
- the position at which the store enumerates a new branch (`slot`);
- whether `Commands.Checkout` succeeds (`Switch`).

A branch name the counter cannot read is an error value, as are an unborn head,
a taken branch name and a refused empty commit.

Four consequences of the code are worth knowing:

- `master` counts as branch 1, so the first automatic branch is "2".
  See `Session.StartOnPlainFolder` and `BranchCounter.DefaultOnlyCountsTwo`.
- When `Commands.Checkout` refuses, the branch `CreateBranch` just made stays,
  because it is created before the checkout. The head, the index, the working
  directory and the counter are left unchanged. A refused switch is therefore
  not all-or-nothing.
- After such a refused switch the counter names a branch that exists. Every
  later click on a commit that is no branch tip raises a name conflict, until
  the counter is recomputed by starting again. See
  `Checkout.RefusedLeavesCounterStale` and `Checkout.RefusedThenNameConflict`.
- A branch name that is neither `master` nor a number makes `LoadBrunches`
  raise. The model reports it as `MalformedBranchName` and does not start
  watching.

## Model

| member | source | states |
|---|---|---|
| Int32.Wrap | Hrenomantika.Ui/MainWindow.xaml.cs:100-107 | the result is the 32-bit value congruent to the input modulo 2^32, and is the input itself when the input is in range (unchecked `+ 1` on `int`) |
| Int32.ParsePrintRoundTrip | Hrenomantika.Ui/MainWindow.xaml.cs:243 | a counter printed with `ToString()` and read back with `Convert.ToInt32` gives the counter again, negative values included |
| Int32.DecimalStringIsNotWord | Hrenomantika.Ui/MainWindow.xaml.cs:103-104 | a printed number never equals a word that does not start with a minus sign or a digit, such as `master` |
| Int32.DecimalString | Hrenomantika.Ui/MainWindow.xaml.cs:243 | `int.ToString()` starts with a minus sign exactly for a negative value and is digits everywhere else |
| Int32.ParseDigits | Hrenomantika.Ui/MainWindow.xaml.cs:105 | `Convert.ToInt32` reads a run of digits as its value when that fits in 32 bits and throws an overflow otherwise |
| Int32.ParseBlank | Hrenomantika.Ui/MainWindow.xaml.cs:105 | `Convert.ToInt32` throws a format error on an empty or all-white-space name |
| Int32.NatStringValue | Hrenomantika.Ui/MainWindow.xaml.cs:243 | the digits printed for a natural number have that number as their value |
| BranchCounter.BranchNumber | Hrenomantika.Ui/MainWindow.xaml.cs:102-106 | `master` is 1 without parsing; any other name has a number exactly when `Convert.ToInt32` reads it, and the number is what it reads; a failure names the branch |
| BranchCounter.MaxOf | Hrenomantika.Ui/MainWindow.xaml.cs:100-107 | `Max` over values computed in enumeration order succeeds exactly when every value does |
| BranchCounter.MaxOfIsLargest | Hrenomantika.Ui/MainWindow.xaml.cs:100-107 | a successful `Max` bounds every value and equals one of them |
| BranchCounter.MaxOfFailsAtFirst | Hrenomantika.Ui/MainWindow.xaml.cs:100-107 | a failing `Max` raises the first failure in enumeration order |
| BranchCounter.MaxBranchNumber | Hrenomantika.Ui/MainWindow.xaml.cs:100-107 | `Max` over the branch numbers succeeds exactly when every name has a number |
| BranchCounter.MaxIsLargestNumber | Hrenomantika.Ui/MainWindow.xaml.cs:100-107 | a successful maximum bounds every branch number and equals one of them |
| BranchCounter.MaxFailsAtFirstUnnumbered | Hrenomantika.Ui/MainWindow.xaml.cs:100-107 | a failing maximum carries the error of the first name, in enumeration order, that has no number |
| BranchCounter.NextBranchNumber | Hrenomantika.Ui/MainWindow.xaml.cs:98-108 | no branches fail with `NoBranches`; the counter exists exactly when every name is `master` or a 32-bit number; the wrapped predecessor of the counter is the largest branch number; otherwise the first unreadable name is reported with its parse error |
| BranchCounter.NextBranchNumberIsFresh | Hrenomantika.Ui/MainWindow.xaml.cs:98-108 | unless the increment wrapped, every name is `master` or a number below the counter |
| BranchCounter.FreshCounterNameIsNew | Hrenomantika.Ui/MainWindow.xaml.cs:243 | the name printed from a fresh counter is not the name of any branch |
| BranchCounter.DefaultOnlyCountsTwo | Hrenomantika.Ui/MainWindow.xaml.cs:102-107 | a repository with only `master` gets counter 2 |
| BranchCounter.MalformedNameFails | Hrenomantika.Ui/MainWindow.xaml.cs:103-105 | one non-`master` name that does not parse makes the counter fail with `MalformedBranchName`; it is not skipped |
| Repository.Lineage | Hrenomantika.Ui/MainWindow.xaml.cs:133 | a branch's log starts at its tip, and a root commit's log is the commit alone |
| Repository.LineageSuffix | Hrenomantika.Ui/MainWindow.xaml.cs:133 | the log of a commit found at position k of a log is that log from k on |
| Repository.AncestorDistinct | Hrenomantika.Ui/MainWindow.xaml.cs:133 | a commit reachable from a log without repeated ids has such a log too |
| Repository.CanonicalInjective | Hrenomantika.Ui/MainWindow.xaml.cs:119 | two canonical names are equal exactly when the branch names are |
| Repository.Find | Hrenomantika.Ui/MainWindow.xaml.cs:114 | finding a name gives nothing exactly when no branch has it, and otherwise a listed branch with that name |
| Repository.FindListed | Hrenomantika.Ui/MainWindow.xaml.cs:114 | with unique names, finding a listed branch's name gives that branch |
| Repository.InsertedFound | Hrenomantika.Ui/MainWindow.xaml.cs:211-243 | a branch created under a name no branch has is what that name finds, and keeps names unique when they were, whether `repo.Commit` creates it for an unborn head or `CreateBranch` does |
| Repository.InsertBranch | Hrenomantika.Ui/MainWindow.xaml.cs:243 | creating a branch adds exactly that branch, at the store's position, and every other branch keeps its order |
| Repository.InsertedMembers | Hrenomantika.Ui/MainWindow.xaml.cs:243 | after creation the branches are the old ones plus the new one |
| Repository.InsertedShas | Hrenomantika.Ui/MainWindow.xaml.cs:243 | after creation the reachable ids are the old ones plus the new branch's log |
| Repository.FreshOnTop | Hrenomantika.Ui/MainWindow.xaml.cs:167 | a commit with a new id on top of a repeat-free lineage has a repeat-free lineage |
| Repository.SetTipKeepsUniqueNames | Hrenomantika.Ui/MainWindow.xaml.cs:167 | moving a tip keeps branch names unique |
| Repository.SetTip | Hrenomantika.Ui/MainWindow.xaml.cs:167 | a commit moves the tip of the named branch only; names and other tips stay |
| History.Project | Hrenomantika.Ui/MainWindow.xaml.cs:110-149 | the listing starts with the head's header and, when the head is born, has the head's tip directly under it |
| History.PrintOthersNames | Hrenomantika.Ui/MainWindow.xaml.cs:116-123 | the loop over the other branches prints every branch name in enumeration order except the head's |
| History.PrintBranch | Hrenomantika.Ui/MainWindow.xaml.cs:125-147 | a printed branch carries its name, lists no more commits than its log has, and lists its tip first |
| History.Shown | Hrenomantika.Ui/MainWindow.xaml.cs:135-139 | the filtered log is no longer than the log and starts with the tip, even when the tip was seen before |
| History.HeadersInOrder | Hrenomantika.Ui/MainWindow.xaml.cs:114-123 | the headers are the head branch, then every other branch in enumeration order with the head's name left out (compared by canonical name) |
| History.EveryBranchListedOnce | Hrenomantika.Ui/MainWindow.xaml.cs:114-123 | in a well-formed repository the headers are the branch names, each exactly once, the head first |
| History.ShownIsSubsequence | Hrenomantika.Ui/MainWindow.xaml.cs:135-139 | what a branch lists is its log with some commits left out, in log order |
| History.ShownCovers | Hrenomantika.Ui/MainWindow.xaml.cs:135-139 | after a branch is printed, every commit of its log is in the seen-list |
| History.ShownFresh | Hrenomantika.Ui/MainWindow.xaml.cs:137-140 | a listed commit other than the tip was neither seen before nor listed earlier under the branch |
| History.PrintBranchSegment | Hrenomantika.Ui/MainWindow.xaml.cs:126-148 | a printed branch starts with its tip, lists commits of its log in order, lists no commit seen before past the tip, and leaves its whole log seen |
| History.SegmentsKeepLineageOrder | Hrenomantika.Ui/MainWindow.xaml.cs:110-148 | every segment of the listing names a branch, starts with its tip and keeps the tip-to-root order of its log |
| History.PastTipNotTip | Hrenomantika.Ui/MainWindow.xaml.cs:133-139 | past the tip, a lineage without repeats lists no commit with the tip's id |
| History.ProjectSingleRoot | Hrenomantika.Ui/MainWindow.xaml.cs:110-148 | a repository with one branch over a root commit lists exactly that header and that commit |
| History.HeaderFollowedByTip | Hrenomantika.Ui/MainWindow.xaml.cs:129-146 | every header is followed directly by its branch's tip, even when the tip was listed earlier |
| History.RepeatsAreTips | Hrenomantika.Ui/MainWindow.xaml.cs:137-140 | a commit listed twice is, at its later place, right under a header; other commits are listed at most once |
| History.EveryCommitListed | Hrenomantika.Ui/MainWindow.xaml.cs:110-148 | every commit of every branch's log is listed at least once |
| History.ListedIsReachable | Hrenomantika.Ui/MainWindow.xaml.cs:139-146 | every commit the listing offers is a commit of some branch |
| Checkout.TipShas | Hrenomantika.Ui/MainWindow.xaml.cs:235 | the tip ids of the branches, position by position |
| Checkout.FirstTipped | Hrenomantika.Ui/MainWindow.xaml.cs:236-238 | the first branch in enumeration order whose tip has the id, or nothing exactly when no tip has it |
| Checkout.CounterName | Hrenomantika.Ui/MainWindow.xaml.cs:243 | the name made from the counter reads back as the counter and is never `master` |
| Checkout.LoadCommit | Hrenomantika.Ui/MainWindow.xaml.cs:227-250 | an unborn head raises and changes nothing. A tip checks out the first branch with that tip, with no new branch and the counter kept. Any other commit either meets a taken counter name and changes nothing, or gets exactly one new branch named after the counter; on a successful switch the head moves there and the counter wraps up by one, and on a refused switch the branch stays with head and counter unchanged. An exception creates at most that counter-named branch and leaves the head, the index, the working directory and the counter as they were. A click that raises nothing leaves the head born, and either keeps the branches and the counter or adds exactly the counter-named branch and advances the counter |
| Checkout.CheckoutReachesTarget | Hrenomantika.Ui/MainWindow.xaml.cs:234-246 | after a successful click the head's branch has the picked commit as its tip |
| Checkout.CheckoutKeepsCounterFresh | Hrenomantika.Ui/MainWindow.xaml.cs:241-246 | with a fresh counter below `int.MaxValue` a switching click never meets a taken name, adds a branch only for a non-tip commit, and leaves the counter fresh |
| Checkout.RefusedLeavesCounterStale | Hrenomantika.Ui/MainWindow.xaml.cs:243-245 | a refused checkout on the slow path keeps the branch `CreateBranch` made but skips `countBrunches++`, so the counter is no longer fresh |
| Checkout.RefusedThenNameConflict | Hrenomantika.Ui/MainWindow.xaml.cs:241-245 | after a refused checkout on the slow path, the next click on any commit that is no branch tip raises a name conflict for the same counter name and changes nothing, whatever the checkout would do |
| Checkout.InsertedNamesFresh | Hrenomantika.Ui/MainWindow.xaml.cs:243-245 | a branch named after the counter, followed by the increment, keeps the counter fresh |
| Checkout.InsertKeepsWellFormed | Hrenomantika.Ui/MainWindow.xaml.cs:243-244 | a new branch at a commit with a repeat-free log keeps the repository well-formed, whether or not the head moves onto it |
| Checkout.CheckoutKeepsWellFormed | Hrenomantika.Ui/MainWindow.xaml.cs:227-250 | picking a commit of the repository keeps it well-formed, whatever the store's checkout does |
| Checkout.CheckoutTwiceCreatesOneBranch | Hrenomantika.Ui/MainWindow.xaml.cs:235-246 | picking the same commit again after a successful click creates no branch and keeps the counter |
| Snapshot.ChangedIffDiffers | Hrenomantika.Ui/MainWindow.xaml.cs:160 | the diff of the head's tip against the index and working directory, untracked files included, reports every difference between the working directory and the tip; once everything is staged, it is non-empty exactly when the working directory differs from the tip |
| Snapshot.StagedChangeReported | Hrenomantika.Ui/MainWindow.xaml.cs:160 | a staged change that the working directory undoes is still reported by the diff |
| Snapshot.Schedule | Hrenomantika.Ui/MainWindow.xaml.cs:156-174 | an unborn head fails. Nothing is committed exactly when the diff is empty. When the diff reports something but the working directory equals the tip, everything is staged and the commit is refused as empty, which only happens when the index differed from the working directory. Otherwise a commit with a tree other than its parent's records the whole working directory on top of the old tip with the fixed author, stages everything, and moves only the head branch |
| Repository.FindAfterSetTip | Hrenomantika.Ui/MainWindow.xaml.cs:167 | after a commit the head's name finds the new commit |
| Snapshot.EmptyCommitThenQuiet | Hrenomantika.Ui/MainWindow.xaml.cs:160-167 | after a refused empty commit everything is staged, so the next run finds nothing to commit |
| Snapshot.SnapshotExtendsHead | Hrenomantika.Ui/MainWindow.xaml.cs:162-167 | a snapshot makes the head's log the new commit followed by the old log |
| Snapshot.SnapshotIdempotent | Hrenomantika.Ui/MainWindow.xaml.cs:160-167 | right after a snapshot the next run commits nothing |
| Snapshot.NewFileCommitted | Hrenomantika.Ui/MainWindow.xaml.cs:160-167 | a new file the head's tip lacks triggers a commit that records it, untracked as it was |
| Snapshot.SnapshotKeepsWellFormed | Hrenomantika.Ui/MainWindow.xaml.cs:162-167 | with an unused commit id a snapshot keeps the repository well-formed |
| Snapshot.Init | Hrenomantika.Ui/MainWindow.xaml.cs:195 | a plain folder becomes a repository without commits, with an unborn `master` head, nothing staged and its files untracked |
| Snapshot.EnsureGitIsInit | Hrenomantika.Ui/MainWindow.xaml.cs:193-214 | afterwards the head is born. A repository with commits is untouched. Otherwise the head's branch gets one parentless "Initial" commit of the index plus `.hr` = "by YashikMoloka", and the file is written to the working directory; the branches already present are kept and only the head's branch is created |
| Repository.FindFirst | Hrenomantika.Ui/MainWindow.xaml.cs:114 | finding a name gives the first branch that carries it |
| Snapshot.InitAddsOneCommit | Hrenomantika.Ui/MainWindow.xaml.cs:198-211 | initialising a repository without commits adds exactly one commit id |
| Snapshot.InitIdempotent | Hrenomantika.Ui/MainWindow.xaml.cs:198 | initialising an initialised folder changes nothing |
| Snapshot.InitPlainFolder | Hrenomantika.Ui/MainWindow.xaml.cs:193-214 | a new folder comes out well-formed with `master` as its one branch over the initial commit of `.hr` |
| Session.StartRepo | Hrenomantika.Ui/MainWindow.xaml.cs:63-96 | pressing while watching stops and leaves the repository alone. A missing folder reports the bad path. Otherwise the folder is initialised; watching starts exactly when the counter can be computed, showing the listing of the repository, and the only possible failure is an unreadable branch name |
| Session.StartStop | Hrenomantika.Ui/MainWindow.xaml.cs:63-96 | starting gives a window whose listing matches its repository, and a second press stops again |
| Session.StartOnPlainFolder | Hrenomantika.Ui/MainWindow.xaml.cs:63-96 | watching a new folder shows `master` over its initial commit, with counter 2, so the first automatic branch is "2" |
| Session.FirstTickBacksUpFolder | Hrenomantika.Ui/MainWindow.xaml.cs:83-91 | on a new folder holding any file besides the marker, the job's first run commits the whole folder on top of the initial commit |
| Session.Tick | Hrenomantika.Ui/MainWindow.xaml.cs:151-180 | the job does nothing when stopped and never changes the counter. It changes the window exactly when the run does not find the diff empty, and the window then holds the repository the run left: the snapshot's, or the staged one after a refused empty commit. A failing run (unborn head, refused empty commit) reloads nothing and moves no branch. The listing stays in step with the repository |
| Session.ProjectIgnoresIndex | Hrenomantika.Ui/MainWindow.xaml.cs:110-149 | the listing depends on the branches and the head only, so staging does not change it |
| Session.SnapshotCommitIsNew | Hrenomantika.Ui/MainWindow.xaml.cs:160-167 | a snapshot changes the repository and leaves its head born |
| Session.Click | Hrenomantika.Ui/MainWindow.xaml.cs:227-250 | a header or no selection does nothing. An exception leaves the listing, the counter and the checked-out state on screen, with at most a new branch. A click that raises nothing keeps every branch: it either keeps the branch list and the counter, or adds exactly the counter-named branch at the selected commit and advances the counter with wrap-around. It keeps the listing in step with the repository and, with unique names, checks out a branch whose tip is the selected commit |
| Session.ClickKeepsWellFormed | Hrenomantika.Ui/MainWindow.xaml.cs:227-250 | a click on a listed entry keeps the repository well-formed, whatever the checkout does |

## Left out

- The WPF controls are not modelled: list items, heights, button captions, the
  folder dialog and the message box. The listing is a sequence of header and
  commit entries; the header text `--- Brunch: name` and the commit's message
  are not built.
- Hangfire is not modelled: recurring job registration, the schedule,
  retries, and `Dispatcher.Invoke`. `Session.Tick` is one run of the job,
  applied atomically; the immediate `Trigger` after the start is that run
  applied right away, as `Session.FirstTickBacksUpFolder` shows.
- Concurrency between the job thread and the UI thread is not modelled.
- LibGit2Sharp internals are left out.
  - The id of a new commit is a parameter. Freshness of that id is assumed
    where a lemma needs it.
  - The outcome of `Commands.Checkout` is the `Switch` parameter; which local
    changes make it refuse is not modelled.
  - The enumeration position of a created branch is the `slot` parameter.
- `repo.Branches` is modelled as local branches only. Remote-tracking branches
  are not modelled; their friendly names would make the counter fail.
- The tree diff of `Schedule` is path-by-path content comparison: the tip with
  the index, merged with the index with the working directory, untracked files
  included. `.gitignore`, file modes, renames and conflicts are not modelled.
- Dates and times are not modelled. A snapshot's message is a parameter, and
  signatures carry no time.
- File I/O and the directory-exists check are not modelled. The folder is a
  `Folder` value, or nothing when the path does not exist.
- `Repository.Init` on a plain folder is taken to give an unborn `master` head,
  which is git's default without configuration.
- Logging (`Serilog`, `Info`), `Dispose`, `Window_Closing` and the `Instance`
  singleton are not modelled.
- HEAD is always a branch name. A repository opened with a detached HEAD,
  whose `repo.Head` is "(no branch)" and whose snapshots move no branch, is not
  modelled.
- A commit has at most one parent. A repository opened by the tool that
  already holds merge commits, whose `branch.Commits` walk follows every
  parent, is not modelled.
- `int.ToString()` is taken in the invariant culture: a culture with another
  negative sign would print a negative counter differently.
- `Convert.ToInt32` is taken in the invariant culture. Culture-specific signs
  and white space are not modelled, nor trailing NUL characters, which .NET
  also accepts.
- The window's reaction to an exception escaping a handler is not modelled.
  The model returns the error along with the state left at the throw point.
- `BranchCounter.NextBranchNumberIsFresh` excludes a counter that wrapped to
  `int.MinValue`. After a branch named `2147483647`, the next name is
  `-2147483648`, and freshness no longer holds.
- `Checkout.CheckoutKeepsCounterFresh` requires the counter to be below
  `int.MaxValue` for the same reason.

=== FILE: branch_counter.dfy ===
/** `LoadBrunches`: the number the next automatically created branch is named after. */
module BranchCounter {
  import opened Wrappers
  import opened Int32

  /** The default branch: it counts as number 1 and is never parsed. */
  const DefaultBranch := "master"

  /** Why the counter could not be computed: `Max` over an empty enumeration, or a
      branch name `Convert.ToInt32` rejects. */
  datatype CounterError = NoBranches | MalformedBranchName(name: string, reason: ParseError)

  /** The number a branch name stands for. */
  function BranchNumber(name: string): (r: Result<int32, CounterError>)
    // `master` counts as 1 without being parsed
    ensures name == DefaultBranch ==> r == Success(1)
    // any other name is what `Convert.ToInt32` reads from it, and fails exactly when that throws
    ensures name != DefaultBranch ==> (r.Success? <==> Parse(name).Success?)
    ensures name != DefaultBranch && r.Success? ==> Parse(name) == Success(r.value)
    ensures r.Failure? ==> r.error.MalformedBranchName? && r.error.name == name
  {
    if name == DefaultBranch then Success(1)
    else match Parse(name)
      case Success(v) => Success(v)
      case Failure(e) => Failure(MalformedBranchName(name, e))
  }

  /** The branch numbers of an enumeration of names, failures included. */
  function Numbers(names: seq<string>): (rs: seq<Result<int32, CounterError>>)
    ensures |rs| == |names|
    ensures forall i :: 0 <= i < |names| ==> rs[i] == BranchNumber(names[i])
  {
    seq(|names|, i requires 0 <= i < |names| => BranchNumber(names[i]))
  }

  predicate AllSuccess(rs: seq<Result<int32, CounterError>>) {
    forall i :: 0 <= i < |rs| ==> rs[i].Success?
  }

  /** Every name of the enumeration has a number. */
  predicate AllNumbered(names: seq<string>) {
    AllSuccess(Numbers(names))
  }

  /** `Enumerable.Max` over a sequence of values computed in order: the first
      failure propagates, and otherwise the largest value wins. */
  function MaxOf(rs: seq<Result<int32, CounterError>>): (r: Result<int32, CounterError>)
    requires |rs| > 0
    ensures r.Success? <==> AllSuccess(rs)
    decreases |rs|
  {
    match rs[0]
    case Failure(e) => Failure(e)
    case Success(first) =>
      if |rs| == 1 then Success(first)
      else
        var rest := MaxOf(rs[1..]);
        assert AllSuccess(rs) <==> AllSuccess(rs[1..]) by {
          assert forall i :: 1 <= i < |rs| ==> rs[i] == rs[1..][i - 1];
        }
        if rest.Failure? then rest
        else Success(if first < rest.value then rest.value else first)
  }

  /** `v` bounds every value and is one of them. */
  ghost predicate IsLargest(rs: seq<Result<int32, CounterError>>, v: int)
    requires AllSuccess(rs)
  {
    && (forall i :: 0 <= i < |rs| ==> rs[i].value <= v)
    && (exists i :: 0 <= i < |rs| && rs[i].value == v)
  }

  /** The failure at `k` is the first one. */
  predicate FirstFailureAt(rs: seq<Result<int32, CounterError>>, k: int) {
    && 0 <= k < |rs|
    && rs[k].Failure?
    && forall i :: 0 <= i < k ==> rs[i].Success?
  }

  ghost predicate FailsAtFirst(rs: seq<Result<int32, CounterError>>, e: CounterError) {
    exists k :: FirstFailureAt(rs, k) && rs[k] == Failure(e)
  }

  /** A successful maximum bounds every value and is one of them. */
  lemma {:induction false} MaxOfIsLargest(rs: seq<Result<int32, CounterError>>)
    requires |rs| > 0 && AllSuccess(rs)
    ensures IsLargest(rs, MaxOf(rs).value)
    decreases |rs|
  {
    var m := MaxOf(rs).value;
    if |rs| > 1 {
      var tail := rs[1..];
      assert AllSuccess(tail) by {
        assert forall i :: 1 <= i < |rs| ==> rs[i] == tail[i - 1];
      }
      MaxOfIsLargest(tail);
      var t := MaxOf(tail).value;
      var j :| 0 <= j < |tail| && tail[j].value == t;
      assert m == if rs[0].value < t then t else rs[0].value;
      forall i | 0 <= i < |rs|
        ensures rs[i].value <= m
      {
        if i > 0 {
          assert rs[i] == tail[i - 1];
        }
      }
      if rs[0].value < t {
        assert rs[j + 1].value == m;
      } else {
        assert rs[0].value == m;
      }
    } else {
      assert rs[0].value == m;
    }
  }

  /** A failing maximum carries the first failure. */
  lemma {:induction false} MaxOfFailsAtFirst(rs: seq<Result<int32, CounterError>>)
    requires |rs| > 0 && MaxOf(rs).Failure?
    ensures FailsAtFirst(rs, MaxOf(rs).error)
    decreases |rs|
  {
    if rs[0].Failure? {
      assert FirstFailureAt(rs, 0);
    } else {
      var tail := rs[1..];
      MaxOfFailsAtFirst(tail);
      var k :| FirstFailureAt(tail, k) && tail[k] == Failure(MaxOf(tail).error);
      assert forall i :: 1 <= i < |rs| ==> rs[i] == tail[i - 1];
      assert FirstFailureAt(rs, k + 1);
    }
  }

  /** `Enumerable.Max` over the branch numbers, taken in enumeration order, so the
      first name without a number is the one reported. */
  function MaxBranchNumber(names: seq<string>): (r: Result<int32, CounterError>)
    requires |names| > 0
    ensures r.Success? <==> AllNumbered(names)
  {
    MaxOf(Numbers(names))
  }

  /** `v` is the largest branch number: it bounds every one and is one of them. */
  ghost predicate IsLargestNumber(names: seq<string>, v: int)
    requires AllNumbered(names)
  {
    IsLargest(Numbers(names), v)
  }

  /** The error is that of the first name, in enumeration order, without a number. */
  ghost predicate FailsAtFirstUnnumbered(names: seq<string>, e: CounterError) {
    FailsAtFirst(Numbers(names), e)
  }

  /** The maximum bounds every branch number and is one of them. */
  lemma MaxIsLargestNumber(names: seq<string>)
    requires |names| > 0 && MaxBranchNumber(names).Success?
    ensures IsLargestNumber(names, MaxBranchNumber(names).value)
  {
    MaxOfIsLargest(Numbers(names));
  }

  /** A failing maximum reports the error of the first name without a number. */
  lemma MaxFailsAtFirstUnnumbered(names: seq<string>)
    requires |names| > 0 && MaxBranchNumber(names).Failure?
    ensures FailsAtFirstUnnumbered(names, MaxBranchNumber(names).error)
  {
    MaxOfFailsAtFirst(Numbers(names));
  }

  /** `countBrunches`: one more than the largest branch number, with C#'s wrap-around;
      so the number before the counter is the largest branch number. */
  function NextBranchNumber(names: seq<string>): (r: Result<int32, CounterError>)
    ensures names == [] ==> r == Failure(NoBranches)
    ensures r.Success? <==> names != [] && AllNumbered(names)
    ensures r.Success? ==> IsLargestNumber(names, Wrap(r.value - 1))
    ensures r.Failure? && names != [] ==> FailsAtFirstUnnumbered(names, r.error)
  {
    if names == [] then Failure(NoBranches)
    else
      match MaxBranchNumber(names)
      case Failure(e) =>
        MaxFailsAtFirstUnnumbered(names);
        Failure(e)
      case Success(m) =>
        MaxIsLargestNumber(names);
        WrapPredecessor(m);
        Success(Wrap(m + 1))
  }

  /** Stepping back from a wrapped increment returns to the start. */
  lemma WrapPredecessor(m: int32)
    ensures Wrap(Wrap(m + 1) - 1) == m
  {
  }

  /** The counter is fresh for a set of names: every name is the default branch or a
      number below the counter. */
  predicate CounterFresh(names: seq<string>, counter: int) {
    forall i :: 0 <= i < |names| ==>
      (names[i] == DefaultBranch || (Parse(names[i]).Success? && Parse(names[i]).value < counter))
  }

  /** The number of a branch other than the default one is its parsed name. */
  lemma NumberOfNumericName(name: string)
    requires name != DefaultBranch && BranchNumber(name).Success?
    ensures Parse(name) == Success(BranchNumber(name).value)
  {
  }

  /** A computed counter is fresh, unless the largest number was `int.MaxValue` and
      the increment wrapped around. */
  lemma NextBranchNumberIsFresh(names: seq<string>, c: int32)
    requires NextBranchNumber(names) == Success(c)
    requires c != MinValue
    ensures CounterFresh(names, c)
  {
    assert Wrap(c - 1) == c - 1;
    assert IsLargest(Numbers(names), c - 1);
    forall i | 0 <= i < |names| && names[i] != DefaultBranch
      ensures Parse(names[i]).Success? && Parse(names[i]).value < c
    {
      assert Numbers(names)[i].Success? && Numbers(names)[i].value <= c - 1;
      NumberOfNumericName(names[i]);
    }
  }

  /** The name printed from a fresh counter collides with no existing branch name. */
  lemma FreshCounterNameIsNew(names: seq<string>, counter: int32)
    requires CounterFresh(names, counter)
    ensures DecimalString(counter) !in names
  {
    if DecimalString(counter) in names {
      var i :| 0 <= i < |names| && names[i] == DecimalString(counter);
      DecimalStringIsNotWord(counter, DefaultBranch);
      ParsePrintRoundTrip(counter);
    }
  }

  /** A repository holding only the default branch names its first automatic branch "2". */
  lemma DefaultOnlyCountsTwo()
    ensures NextBranchNumber([DefaultBranch]) == Success(2)
  {
  }

  /** A non-default name that is not a 32-bit number stops the computation; it is not skipped. */
  lemma MalformedNameFails(names: seq<string>, k: nat)
    requires k < |names| && names[k] != DefaultBranch && Parse(names[k]).Failure?
    ensures NextBranchNumber(names).Failure?
    ensures NextBranchNumber(names).error.MalformedBranchName?
  {
    var rs := Numbers(names);
    assert rs[k].Failure?;
    assert !AllSuccess(rs);
    MaxFailsAtFirstUnnumbered(names);
    var j :| FirstFailureAt(rs, j) && rs[j] == Failure(NextBranchNumber(names).error);
    assert rs[j] == BranchNumber(names[j]);
  }
}

=== FILE: checkout.dfy ===
/** `LoadCommit`: checking out the commit picked in the listing. A commit that is
    some branch's tip checks that branch out; any other commit gets a new branch,
    named after the counter, which is checked out and the counter advanced. */
module Checkout {
  import opened Wrappers
  import opened Int32
  import opened Repository
  import opened BranchCounter

  /** What the store's `Commands.Checkout` does with the working directory: it
      refuses (local changes would be overwritten) or it switches, leaving the given
      index and working directory. Which of the two happens is the store's business. */
  datatype Switch = Refused | Switched(index: Tree, work: Tree)

  /** `repo.Head.Commits.First()` on an unborn head, `CreateBranch` with a taken
      name, `Checkout` refusing. */
  datatype CheckoutError = HeadUnborn | NameConflict(name: string) | CheckoutConflict

  /** The repository and the counter after the click, and the exception it raised. */
  datatype Outcome = Outcome(repo: Repo, counter: int32, error: Option<CheckoutError>)

  /** `headscommits`: the tip commit id of every branch, in enumeration order. */
  function TipShas(bs: seq<Branch>): (r: seq<Sha>)
    ensures |r| == |bs|
    ensures forall i :: 0 <= i < |bs| ==> r[i] == bs[i].tip.sha
  {
    if bs == [] then [] else [bs[0].tip.sha] + TipShas(bs[1..])
  }

  /** The branch at `k` is the first of the enumeration whose tip has the id. */
  predicate FirstTipAt(bs: seq<Branch>, sha: Sha, k: int) {
    && 0 <= k < |bs|
    && bs[k].tip.sha == sha
    && forall i :: 0 <= i < k ==> bs[i].tip.sha != sha
  }

  /** `repo.Branches.First(s => s.Commits.First().Sha == sha)`, without the exception:
      nothing when no tip has the id. */
  function FirstTipped(bs: seq<Branch>, sha: Sha): (r: Option<Branch>)
    ensures r.None? <==> sha !in TipShas(bs)
    ensures r.Some? ==> exists k :: FirstTipAt(bs, sha, k) && bs[k] == r.value
    decreases |bs|
  {
    if bs == [] then None
    else if bs[0].tip.sha == sha then
      assert FirstTipAt(bs, sha, 0);
      Some(bs[0])
    else
      var rest := FirstTipped(bs[1..], sha);
      if rest.Some? then
        var k :| FirstTipAt(bs[1..], sha, k) && bs[1..][k] == rest.value;
        assert FirstTipAt(bs, sha, k + 1);
        rest
      else
        assert TipShas(bs) == [bs[0].tip.sha] + TipShas(bs[1..]);
        rest
  }

  /** The name the next created branch gets: `countBrunches.ToString()`. It reads
      back as the counter and is never the default branch's name. */
  function CounterName(counter: int32): (name: string)
    ensures Parse(name) == Success(counter)
    ensures name != DefaultBranch
  {
    ParsePrintRoundTrip(counter);
    DecimalStringIsNotWord(counter, DefaultBranch);
    DecimalString(counter)
  }

  /** The branches after a click: those before, or those with the branch named after
      `counter` added at the picked commit. */
  ghost predicate AtMostCreated(before: seq<Branch>, counter: int32, target: Commit, slot: nat, after: seq<Branch>) {
    after == before || after == InsertBranch(before, Branch(CounterName(counter), target), slot)
  }

  /** The branches and counter after a click that raised nothing: both as before, or
      the counter-named branch added at the picked commit and the counter advanced. */
  ghost predicate KeptOrAdvanced(before: seq<Branch>, counter: int32, target: Commit, slot: nat, after: seq<Branch>, next: int32) {
    || (after == before && next == counter)
    || (after == InsertBranch(before, Branch(CounterName(counter), target), slot) && next == Wrap(counter + 1))
  }

  /** The click handler, after the listing has handed it a commit. `sw` is what the
      store's checkout does; `slot` is where the store enumerates a new branch. */
  function LoadCommit(r: Repo, counter: int32, target: Commit, sw: Switch, slot: nat): (o: Outcome)
    // the head's log is read first: an unborn head raises before anything changes
    ensures !HasCommits(r) <==> o.error == Some(HeadUnborn)
    ensures !HasCommits(r) ==> o.repo == r && o.counter == counter
    // a tip is never given a second branch: its branch is checked out
    ensures HasCommits(r) && target.sha in TipShas(r.branches) ==>
      && o.repo.branches == r.branches
      && o.counter == counter
      && (exists k :: FirstTipAt(r.branches, target.sha, k) && (sw.Switched? ==> o.repo.head == r.branches[k].name))
      && (o.error.None? <==> sw.Switched?)
      && (sw.Refused? ==> o.repo == r && o.error == Some(CheckoutConflict))
    // a commit that is no tip: a taken counter name stops the handler, unchanged
    ensures HasCommits(r) && target.sha !in TipShas(r.branches) && CounterName(counter) in Names(r.branches) ==>
      o == Outcome(r, counter, Some(NameConflict(CounterName(counter))))
    // otherwise exactly one branch, named after the counter, is created at the commit
    ensures HasCommits(r) && target.sha !in TipShas(r.branches) && CounterName(counter) !in Names(r.branches) ==>
      && o.repo.branches == InsertBranch(r.branches, Branch(CounterName(counter), target), slot)
      && (sw.Switched? ==> o.error.None? && o.repo.head == CounterName(counter) && o.counter == Wrap(counter + 1))
      && (sw.Refused? ==> o.error == Some(CheckoutConflict) && o.repo.head == r.head && o.counter == counter)
    // a successful checkout leaves the store's index and working directory, and a born head
    ensures o.error.None? ==> sw.Switched? && o.repo.index == sw.index && o.repo.work == sw.work
    ensures o.error.None? ==> HasCommits(o.repo)
    // and keeps every branch, adding at most the counter-named one with the counter advanced
    ensures o.error.None? ==> KeptOrAdvanced(r.branches, counter, target, slot, o.repo.branches, o.counter)
    // an exception leaves the head, the index, the working directory and the counter as they were
    ensures o.error.Some? ==> o.repo == r.(branches := o.repo.branches) && o.counter == counter
    // and at most the branch named after the counter has been created, at the picked commit
    ensures o.error.Some? ==> AtMostCreated(r.branches, counter, target, slot, o.repo.branches)
  {
    if !HasCommits(r) then Outcome(r, counter, Some(HeadUnborn))
    else match FirstTipped(r.branches, target.sha)
      case Some(b) =>
        assert b.name in Names(r.branches) by {
          var k :| FirstTipAt(r.branches, target.sha, k) && r.branches[k] == b;
          assert Names(r.branches)[k] == b.name;
        }
        (match sw
         case Refused => Outcome(r, counter, Some(CheckoutConflict))
         case Switched(index, work) => Outcome(Repo(r.branches, b.name, index, work), counter, None))
      case None =>
        var name := CounterName(counter);
        if name in Names(r.branches) then Outcome(r, counter, Some(NameConflict(name)))
        else
          var created := r.(branches := InsertBranch(r.branches, Branch(name, target), slot));
          assert name in Names(created.branches) by {
            var k := if slot < |r.branches| then slot else |r.branches|;
            assert Names(created.branches)[k] == name;
          }
          match sw
          case Refused => Outcome(created, counter, Some(CheckoutConflict))
          case Switched(index, work) => Outcome(Repo(created.branches, name, index, work), Wrap(counter + 1), None)
  }

  /** The branch the head names after a successful click has the picked commit as its
      tip: the listing's selection is what gets checked out. */
  lemma CheckoutReachesTarget(r: Repo, counter: int32, target: Commit, sw: Switch, slot: nat)
    ensures var o := LoadCommit(r, counter, target, sw, slot);
      UniqueNames(r.branches) && o.error.None? ==>
      && o.repo.head in Names(o.repo.branches)
      && Find(o.repo.branches, o.repo.head).value.tip.sha == target.sha
  {
    var o := LoadCommit(r, counter, target, sw, slot);
    if !UniqueNames(r.branches) || o.error.Some? {
    } else if target.sha in TipShas(r.branches) {
      var k :| FirstTipAt(r.branches, target.sha, k) && o.repo.head == r.branches[k].name;
      FindListed(r.branches, k);
    } else {
      var name := CounterName(counter);
      var bs := o.repo.branches;
      var j := if slot < |r.branches| then slot else |r.branches|;
      assert bs[j] == Branch(name, target);
      InsertedFound(r.branches, Branch(name, target), slot);
    }
  }

  /** A fresh counter below `int.MaxValue` never meets a taken name; the created
      branch and the advanced counter keep it fresh, and there is one more branch. */
  lemma CheckoutKeepsCounterFresh(r: Repo, counter: int32, target: Commit, sw: Switch, slot: nat)
    requires HasCommits(r) && sw.Switched?
    requires CounterFresh(Names(r.branches), counter) && counter < MaxValue
    ensures var o := LoadCommit(r, counter, target, sw, slot);
      && o.error.None?
      && CounterFresh(Names(o.repo.branches), o.counter)
      && |o.repo.branches| == |r.branches| + (if target.sha in TipShas(r.branches) then 0 else 1)
  {
    FreshCounterNameIsNew(Names(r.branches), counter);
    if target.sha !in TipShas(r.branches) {
      ParsePrintRoundTrip(counter);
      InsertedNamesFresh(r.branches, Branch(CounterName(counter), target), slot, counter);
    }
  }

  /** A refused switch on the slow path keeps the branch just created under the
      counter's name but not the increment: the counter is no longer fresh. */
  lemma RefusedLeavesCounterStale(r: Repo, counter: int32, target: Commit, slot: nat)
    requires HasCommits(r) && target.sha !in TipShas(r.branches) && CounterName(counter) !in Names(r.branches)
    ensures var o := LoadCommit(r, counter, target, Refused, slot);
      && o.error == Some(CheckoutConflict)
      && !CounterFresh(Names(o.repo.branches), o.counter)
  {
    var o := LoadCommit(r, counter, target, Refused, slot);
    var name := CounterName(counter);
    InsertedFound(r.branches, Branch(name, target), slot);
    var i :| 0 <= i < |Names(o.repo.branches)| && Names(o.repo.branches)[i] == name;
    assert !(Parse(name).value < counter);
  }

  /** After a refused switch on the slow path, every later click on a commit that is
      no branch tip meets the name left behind, whatever the checkout would do. */
  lemma RefusedThenNameConflict(r: Repo, counter: int32, target: Commit, slot: nat, next: Commit, sw: Switch, slot2: nat)
    requires HasCommits(r) && target.sha !in TipShas(r.branches) && CounterName(counter) !in Names(r.branches)
    requires var o := LoadCommit(r, counter, target, Refused, slot); next.sha !in TipShas(o.repo.branches)
    ensures var o := LoadCommit(r, counter, target, Refused, slot);
      LoadCommit(o.repo, o.counter, next, sw, slot2) == Outcome(o.repo, counter, Some(NameConflict(CounterName(counter))))
  {
    var o := LoadCommit(r, counter, target, Refused, slot);
    InsertedFound(r.branches, Branch(CounterName(counter), target), slot);
    InsertedKeepsName(r.branches, Branch(CounterName(counter), target), slot, r.head);
    assert HasCommits(o.repo);
  }

  /** Inserting a branch named after the counter and advancing the counter keeps it fresh. */
  lemma InsertedNamesFresh(bs: seq<Branch>, b: Branch, slot: nat, counter: int)
    requires CounterFresh(Names(bs), counter) && Parse(b.name) == Success(counter)
    ensures CounterFresh(Names(InsertBranch(bs, b, slot)), counter + 1)
  {
    var r := InsertBranch(bs, b, slot);
    InsertedMembers(bs, b, slot);
    forall i | 0 <= i < |r|
      ensures Names(r)[i] == DefaultBranch || (Parse(Names(r)[i]).Success? && Parse(Names(r)[i]).value < counter + 1)
    {
      assert Names(r)[i] == r[i].name;
      if r[i] != b {
        assert r[i] in bs;
        var j :| 0 <= j < |bs| && bs[j] == r[i];
        assert Names(bs)[j] == r[i].name;
      }
    }
  }

  /** A new branch under a new name, at a commit whose lineage repeats no id, keeps a
      well-formed repository well-formed, whether or not the head moves onto it. */
  lemma InsertKeepsWellFormed(r: Repo, nb: Branch, slot: nat, moveHead: bool)
    requires WellFormed(r) && nb.name !in Names(r.branches) && DistinctShas(Lineage(nb.tip))
    ensures var bs := InsertBranch(r.branches, nb, slot);
      WellFormed(Repo(bs, if moveHead then nb.name else r.head, r.index, r.work))
  {
    var bs := InsertBranch(r.branches, nb, slot);
    var head := if moveHead then nb.name else r.head;
    assert UniqueNames(bs) by {
      InsertedFound(r.branches, nb, slot);
    }
    assert forall x :: x in bs ==> DistinctShas(Lineage(x.tip)) by {
      InsertedMembers(r.branches, nb, slot);
    }
    assert head in Names(bs) by {
      if moveHead {
        InsertedFound(r.branches, nb, slot);
      } else {
        InsertedKeepsName(r.branches, nb, slot, r.head);
      }
    }
  }

  /** A name that was taken stays taken after an insertion. */
  lemma InsertedKeepsName(bs: seq<Branch>, b: Branch, slot: nat, name: string)
    requires name in Names(bs)
    ensures name in Names(InsertBranch(bs, b, slot))
  {
    var k := if slot < |bs| then slot else |bs|;
    var i :| 0 <= i < |bs| && Names(bs)[i] == name;
    var j := if i < k then i else i + 1;
    InsertedPosition(bs, b, slot, j);
    assert Names(InsertBranch(bs, b, slot))[j] == name;
  }

  /** The store's guarantees survive a click, provided the picked commit is one the
      repository holds. */
  lemma CheckoutKeepsWellFormed(r: Repo, counter: int32, target: Commit, sw: Switch, slot: nat)
    requires WellFormed(r) && Reachable(r.branches, target)
    ensures WellFormed(LoadCommit(r, counter, target, sw, slot).repo)
  {
    var o := LoadCommit(r, counter, target, sw, slot);
    if target.sha !in TipShas(r.branches) && CounterName(counter) !in Names(r.branches) {
      var b :| b in r.branches && target in Lineage(b.tip);
      AncestorDistinct(b.tip, target);
      InsertKeepsWellFormed(r, Branch(CounterName(counter), target), slot, sw.Switched?);
    } else if target.sha in TipShas(r.branches) && sw.Switched? {
      var k :| FirstTipAt(r.branches, target.sha, k) && o.repo.head == r.branches[k].name;
      assert Names(r.branches)[k] == o.repo.head;
    }
  }

  /** Picking the same commit twice creates one branch: the second click finds the
      first click's branch by its tip and only checks it out again. */
  lemma CheckoutTwiceCreatesOneBranch(r: Repo, counter: int32, target: Commit, sw1: Switch, sw2: Switch, slot1: nat, slot2: nat)
    requires HasCommits(r) && sw1.Switched? && sw2.Switched?
    requires LoadCommit(r, counter, target, sw1, slot1).error.None?
    ensures var o1 := LoadCommit(r, counter, target, sw1, slot1);
      var o2 := LoadCommit(o1.repo, o1.counter, target, sw2, slot2);
      && o2.error.None?
      && o2.repo.branches == o1.repo.branches
      && o2.counter == o1.counter
      && |o2.repo.branches| <= |r.branches| + 1
  {
  }
}

=== FILE: history.dfy ===
/** `LoadCommits` and its local `PrintBrunch`: the list the window shows, a header per
    branch followed by that branch's commits, the head branch first. One seen-list
    runs across the whole listing, so shared history is shown once, but a branch's
    own tip is always shown under its header. */
module History {
  import opened Wrappers
  import opened Repository

  /** One line of the listing: a branch header or a commit. */
  datatype Entry = Header(branch: string) | Item(commit: Commit)

  /** What one `PrintBrunch` call contributes: the branch and the commits it listed. */
  datatype Segment = Segment(branch: string, shown: seq<Commit>)

  /** `xs` is `ys` with some elements left out, the rest in their original order. */
  predicate IsSubsequence<T(==)>(xs: seq<T>, ys: seq<T>)
    decreases |ys|
  {
    xs == [] || (ys != [] && ((xs[0] == ys[0] && IsSubsequence(xs[1..], ys[1..])) || IsSubsequence(xs, ys[1..])))
  }

  lemma {:induction false} SubsequenceElements<T>(xs: seq<T>, ys: seq<T>)
    requires IsSubsequence(xs, ys)
    ensures forall x :: x in xs ==> x in ys
    decreases |ys|
  {
    if xs != [] {
      if xs[0] == ys[0] && IsSubsequence(xs[1..], ys[1..]) {
        SubsequenceElements(xs[1..], ys[1..]);
        forall x | x in xs
          ensures x in ys
        {
          if x != xs[0] {
            assert x in xs[1..];
          }
        }
      } else {
        SubsequenceElements(xs, ys[1..]);
      }
    }
  }

  // ---------------------------------------------------------------------------
  // The projection
  // ---------------------------------------------------------------------------

  /** The `foreach` of `PrintBrunch`: a commit already in the seen-list is skipped
      unless it is the branch tip; every listed commit is appended to the seen-list. */
  function Shown(commits: seq<Commit>, tip: Sha, seen: seq<Sha>): (r: seq<Commit>)
    ensures |r| <= |commits|
    // the tip is listed first, even when it was seen before
    ensures commits != [] && commits[0].sha == tip ==> r != [] && r[0] == commits[0]
    decreases |commits|
  {
    if commits == [] then []
    else
      var c := commits[0];
      if c.sha in seen && c.sha != tip then Shown(commits[1..], tip, seen)
      else [c] + Shown(commits[1..], tip, seen + [c.sha])
  }

  /** `PrintBrunch`: the header, then the branch's commits as `Shown` filters them. */
  function PrintBranch(name: string, lineage: seq<Commit>, seen: seq<Sha>): (s: Segment)
    ensures s.branch == name && |s.shown| <= |lineage|
    ensures lineage != [] ==> s.shown != [] && s.shown[0] == lineage[0]
  {
    if lineage == [] then Segment(name, [])
    else Segment(name, Shown(lineage, lineage[0].sha, seen))
  }

  /** The `foreach` of `LoadCommits`: every branch whose canonical name differs from
      the head's, in enumeration order, with the seen-list carried from one to the next. */
  function PrintOthers(bs: seq<Branch>, head: string, seen: seq<Sha>): seq<Segment>
    decreases |bs|
  {
    if bs == [] then []
    else if Canonical(bs[0].name) != Canonical(head) then
      var s := PrintBranch(bs[0].name, Lineage(bs[0].tip), seen);
      [s] + PrintOthers(bs[1..], head, seen + Shas(s.shown))
    else PrintOthers(bs[1..], head, seen)
  }

  /** The segments of the listing: the head branch, then the others. */
  function Segments(r: Repo): seq<Segment> {
    var first := PrintBranch(r.head, HeadLineage(r), []);
    [first] + PrintOthers(r.branches, r.head, Shas(first.shown))
  }

  function Items(cs: seq<Commit>): (r: seq<Entry>)
    ensures |r| == |cs|
    ensures forall i :: 0 <= i < |cs| ==> r[i] == Item(cs[i])
  {
    seq(|cs|, i requires 0 <= i < |cs| => Item(cs[i]))
  }

  function Render(s: Segment): seq<Entry> {
    [Header(s.branch)] + Items(s.shown)
  }

  function Flatten(segs: seq<Segment>): seq<Entry>
    decreases |segs|
  {
    if segs == [] then [] else Render(segs[0]) + Flatten(segs[1..])
  }

  /** `LoadCommits`: the whole listing, in display order. */
  function Project(r: Repo): (l: seq<Entry>)
    // the head's header comes first, and directly under it the head's tip when it is born
    ensures |l| >= 1 && l[0] == Header(r.head)
    ensures HasCommits(r) ==> |l| >= 2 && l[1] == Item(Find(r.branches, r.head).value.tip)
  {
    var segs := Segments(r);
    assert Flatten(segs) == Render(segs[0]) + Flatten(segs[1..]);
    Flatten(segs)
  }

  // ---------------------------------------------------------------------------
  // Views of a listing
  // ---------------------------------------------------------------------------

  function Headers(s: seq<Entry>): seq<string>
    decreases |s|
  {
    if s == [] then [] else (if s[0].Header? then [s[0].branch] else []) + Headers(s[1..])
  }

  function ItemShas(s: seq<Entry>): seq<Sha>
    decreases |s|
  {
    if s == [] then [] else (if s[0].Item? then [s[0].commit.sha] else []) + ItemShas(s[1..])
  }

  function SegmentNames(segs: seq<Segment>): seq<string>
    decreases |segs|
  {
    if segs == [] then [] else [segs[0].branch] + SegmentNames(segs[1..])
  }

  function SegmentShas(segs: seq<Segment>): seq<Sha>
    decreases |segs|
  {
    if segs == [] then [] else Shas(segs[0].shown) + SegmentShas(segs[1..])
  }

  /** The names of a list, leaving out one name. */
  function Except(names: seq<string>, x: string): seq<string>
    decreases |names|
  {
    if names == [] then [] else (if names[0] == x then [] else [names[0]]) + Except(names[1..], x)
  }

  lemma {:induction false} HeadersConcat(a: seq<Entry>, b: seq<Entry>)
    ensures Headers(a + b) == Headers(a) + Headers(b)
    decreases |a|
  {
    if a == [] {
      assert a + b == b;
    } else {
      var hd := if a[0].Header? then [a[0].branch] else [];
      assert (a + b)[0] == a[0];
      assert (a + b)[1..] == a[1..] + b;
      HeadersConcat(a[1..], b);
      calc {
        Headers(a + b);
        hd + Headers(a[1..] + b);
        hd + (Headers(a[1..]) + Headers(b));
        (hd + Headers(a[1..])) + Headers(b);
      }
    }
  }

  lemma {:induction false} ItemShasConcat(a: seq<Entry>, b: seq<Entry>)
    ensures ItemShas(a + b) == ItemShas(a) + ItemShas(b)
    decreases |a|
  {
    if a == [] {
      assert a + b == b;
    } else {
      var hd := if a[0].Item? then [a[0].commit.sha] else [];
      assert (a + b)[0] == a[0];
      assert (a + b)[1..] == a[1..] + b;
      ItemShasConcat(a[1..], b);
      calc {
        ItemShas(a + b);
        hd + ItemShas(a[1..] + b);
        hd + (ItemShas(a[1..]) + ItemShas(b));
        (hd + ItemShas(a[1..])) + ItemShas(b);
      }
    }
  }

  lemma {:induction false} ItemsViews(cs: seq<Commit>)
    ensures Headers(Items(cs)) == []
    ensures ItemShas(Items(cs)) == Shas(cs)
    decreases |cs|
  {
    if cs != [] {
      assert Items(cs)[1..] == Items(cs[1..]);
      ItemsViews(cs[1..]);
    }
  }

  lemma RenderViews(s: Segment)
    ensures Headers(Render(s)) == [s.branch]
    ensures ItemShas(Render(s)) == Shas(s.shown)
  {
    ItemsViews(s.shown);
    HeadersConcat([Header(s.branch)], Items(s.shown));
    ItemShasConcat([Header(s.branch)], Items(s.shown));
  }

  lemma {:induction false} FlattenViews(segs: seq<Segment>)
    ensures Headers(Flatten(segs)) == SegmentNames(segs)
    ensures ItemShas(Flatten(segs)) == SegmentShas(segs)
    decreases |segs|
  {
    if segs != [] {
      RenderViews(segs[0]);
      FlattenViews(segs[1..]);
      HeadersConcat(Render(segs[0]), Flatten(segs[1..]));
      ItemShasConcat(Render(segs[0]), Flatten(segs[1..]));
    }
  }

  // ---------------------------------------------------------------------------
  // Order of the branches
  // ---------------------------------------------------------------------------

  lemma {:induction false} PrintOthersNames(bs: seq<Branch>, head: string, seen: seq<Sha>)
    ensures SegmentNames(PrintOthers(bs, head, seen)) == Except(Names(bs), head)
    decreases |bs|
  {
    if bs != [] {
      CanonicalInjective(bs[0].name, head);
      assert Names(bs)[1..] == Names(bs[1..]);
      if bs[0].name != head {
        var s := PrintBranch(bs[0].name, Lineage(bs[0].tip), seen);
        PrintOthersNames(bs[1..], head, seen + Shas(s.shown));
      } else {
        PrintOthersNames(bs[1..], head, seen);
      }
    }
  }

  /** The listing's headers are the head branch, then every other branch in
      enumeration order, the head's name left out. */
  lemma HeadersInOrder(r: Repo)
    ensures Headers(Project(r)) == [r.head] + Except(Names(r.branches), r.head)
  {
    var first := PrintBranch(r.head, HeadLineage(r), []);
    FlattenViews(Segments(r));
    PrintOthersNames(r.branches, r.head, Shas(first.shown));
  }

  lemma {:induction false} ExceptAbsent(names: seq<string>, x: string)
    requires x !in names
    ensures Except(names, x) == names
    decreases |names|
  {
    if names != [] {
      ExceptAbsent(names[1..], x);
    }
  }

  lemma {:induction false} ExceptOnce(names: seq<string>, x: string)
    requires x in names
    requires forall i, j :: 0 <= i < j < |names| ==> names[i] != names[j]
    ensures multiset(names) == multiset{x} + multiset(Except(names, x))
    decreases |names|
  {
    assert names == [names[0]] + names[1..];
    if names[0] == x {
      ExceptAbsent(names[1..], x);
    } else {
      ExceptOnce(names[1..], x);
    }
  }

  /** In a well-formed repository every branch is listed exactly once: the headers
      are the branch names, each once. */
  lemma EveryBranchListedOnce(r: Repo)
    requires WellFormed(r)
    ensures multiset(Headers(Project(r))) == multiset(Names(r.branches))
    ensures Headers(Project(r))[0] == r.head
  {
    HeadersInOrder(r);
    ExceptOnce(Names(r.branches), r.head);
  }

  // ---------------------------------------------------------------------------
  // One branch segment
  // ---------------------------------------------------------------------------

  lemma {:induction false} ShownIsSubsequence(commits: seq<Commit>, tip: Sha, seen: seq<Sha>)
    ensures IsSubsequence(Shown(commits, tip, seen), commits)
    decreases |commits|
  {
    if commits != [] {
      var c := commits[0];
      if c.sha in seen && c.sha != tip {
        ShownIsSubsequence(commits[1..], tip, seen);
      } else {
        ShownIsSubsequence(commits[1..], tip, seen + [c.sha]);
      }
    }
  }

  /** Every commit of the lineage is in the seen-list once the branch is printed. */
  lemma {:induction false} ShownCovers(commits: seq<Commit>, tip: Sha, seen: seq<Sha>)
    ensures forall c :: c in commits ==> c.sha in seen + Shas(Shown(commits, tip, seen))
    decreases |commits|
  {
    if commits != [] {
      var c := commits[0];
      if c.sha in seen && c.sha != tip {
        ShownCovers(commits[1..], tip, seen);
      } else {
        var rest := Shown(commits[1..], tip, seen + [c.sha]);
        ShownCovers(commits[1..], tip, seen + [c.sha]);
        assert Shas([c] + rest) == [c.sha] + Shas(rest);
      }
    }
  }

  /** The commit at `k` of a list is new: its id is neither seen before the list nor
      that of an earlier commit of the list. */
  predicate NewAt(cs: seq<Commit>, seen: seq<Sha>, k: int)
    requires 0 <= k < |cs|
  {
    cs[k].sha !in seen && forall i :: 0 <= i < k ==> cs[i].sha != cs[k].sha
  }

  /** A listed commit that is not the tip was neither seen before nor listed earlier
      under the same branch. */
  lemma {:induction false} ShownFresh(commits: seq<Commit>, tip: Sha, seen: seq<Sha>, k: nat)
    requires k < |Shown(commits, tip, seen)| && Shown(commits, tip, seen)[k].sha != tip
    ensures NewAt(Shown(commits, tip, seen), seen, k)
    decreases |commits|
  {
    var c := commits[0];
    if c.sha in seen && c.sha != tip {
      ShownFresh(commits[1..], tip, seen, k);
    } else {
      var rest := Shown(commits[1..], tip, seen + [c.sha]);
      var sh := [c] + rest;
      assert Shown(commits, tip, seen) == sh;
      if k > 0 {
        assert sh[k] == rest[k - 1];
        ShownFresh(commits[1..], tip, seen + [c.sha], k - 1);
        forall i | 0 <= i < k
          ensures sh[i].sha != sh[k].sha
        {
          if i > 0 {
            assert sh[i] == rest[i - 1];
          }
        }
      }
    }
  }

  /** A listed segment is fresh: past its tip, no commit repeats one seen before. */
  predicate SegmentFresh(s: Segment, seen: seq<Sha>) {
    forall m :: 1 <= m < |s.shown| ==> NewAt(s.shown, seen, m)
  }

  /** A segment is faithful to its branch: it starts with the branch's tip and lists
      commits of the branch's lineage in tip-to-root order. */
  predicate SegmentFaithful(s: Segment, bs: seq<Branch>) {
    match Find(bs, s.branch)
    case None => false
    case Some(b) => |s.shown| > 0 && s.shown[0] == b.tip && IsSubsequence(s.shown, Lineage(b.tip))
  }

  /** Past the first commit, what is listed comes from the rest of the list. */
  lemma ShownPastFirst(commits: seq<Commit>, seen: seq<Sha>, m: nat)
    requires |commits| > 0 && 1 <= m < |Shown(commits, commits[0].sha, seen)|
    ensures Shown(commits, commits[0].sha, seen)[m] in commits[1..]
  {
    var t := commits[0].sha;
    var rest := Shown(commits[1..], t, seen + [t]);
    assert Shown(commits, t, seen) == [commits[0]] + rest;
    ShownIsSubsequence(commits[1..], t, seen + [t]);
    SubsequenceElements(rest, commits[1..]);
    assert rest[m - 1] in rest;
  }

  /** In a list without repeated ids, nothing past the first commit has its id. */
  lemma DistinctPastFirst(cs: seq<Commit>, x: Commit)
    requires DistinctShas(cs) && |cs| > 0 && x in cs[1..]
    ensures x.sha != cs[0].sha
  {
    var j :| 0 <= j < |cs[1..]| && cs[1..][j] == x;
    assert cs[j + 1] == x;
  }

  /** Past the tip, a lineage free of repeats holds no commit with the tip's id. */
  lemma PastTipNotTip(b: Branch, seen: seq<Sha>, m: nat)
    requires DistinctShas(Lineage(b.tip))
    requires 1 <= m < |Shown(Lineage(b.tip), b.tip.sha, seen)|
    ensures Shown(Lineage(b.tip), b.tip.sha, seen)[m].sha != b.tip.sha
  {
    var lin := Lineage(b.tip);
    ShownPastFirst(lin, seen, m);
    DistinctPastFirst(lin, Shown(lin, b.tip.sha, seen)[m]);
  }

  /** Printing a branch lists its tip first, then commits of its lineage in order,
      none of them seen before, and leaves every commit of the lineage seen. */
  lemma PrintBranchSegment(b: Branch, seen: seq<Sha>)
    requires DistinctShas(Lineage(b.tip))
    ensures var s := PrintBranch(b.name, Lineage(b.tip), seen);
      && s.branch == b.name
      && |s.shown| > 0 && s.shown[0] == b.tip
      && IsSubsequence(s.shown, Lineage(b.tip))
      && SegmentFresh(s, seen)
      && forall c :: c in Lineage(b.tip) ==> c.sha in seen + Shas(s.shown)
  {
    var lin := Lineage(b.tip);
    var t := b.tip.sha;
    var sh := Shown(lin, t, seen);
    assert PrintBranch(b.name, lin, seen).shown == sh;
    assert sh[0] == b.tip;
    ShownIsSubsequence(lin, t, seen);
    ShownCovers(lin, t, seen);
    forall m | 1 <= m < |sh|
      ensures NewAt(sh, seen, m)
    {
      PastTipNotTip(b, seen, m);
      ShownFresh(lin, t, seen, m);
    }
  }

  // ---------------------------------------------------------------------------
  // The segments of a well-formed repository
  // ---------------------------------------------------------------------------

  /** Each segment, in turn, is fresh with respect to everything listed before it. */
  predicate SegmentsFresh(segs: seq<Segment>, seen: seq<Sha>)
    decreases |segs|
  {
    segs == [] || (SegmentFresh(segs[0], seen) && SegmentsFresh(segs[1..], seen + Shas(segs[0].shown)))
  }

  /** The branches of a repository whose names are unique are found under their names. */
  predicate Findable(bs: seq<Branch>, all: seq<Branch>) {
    forall b :: b in bs ==> Find(all, b.name) == Some(b) && DistinctShas(Lineage(b.tip))
  }

  lemma {:induction false} PrintOthersSegments(bs: seq<Branch>, all: seq<Branch>, head: string, seen: seq<Sha>)
    requires Findable(bs, all)
    ensures var segs := PrintOthers(bs, head, seen);
      && SegmentsFresh(segs, seen)
      && (forall k :: 0 <= k < |segs| ==> SegmentFaithful(segs[k], all))
      && (forall b, c :: b in bs && b.name != head && c in Lineage(b.tip) ==> c.sha in seen + SegmentShas(segs))
    decreases |bs|
  {
    if bs != [] {
      var b := bs[0];
      CanonicalInjective(b.name, head);
      assert Findable(bs[1..], all);
      if b.name != head {
        var s := PrintBranch(b.name, Lineage(b.tip), seen);
        var seen' := seen + Shas(s.shown);
        var rest := PrintOthers(bs[1..], head, seen');
        PrintBranchSegment(b, seen);
        PrintOthersSegments(bs[1..], all, head, seen');
        assert PrintOthers(bs, head, seen) == [s] + rest;
        assert SegmentShas([s] + rest) == Shas(s.shown) + SegmentShas(rest);
        forall k | 0 <= k < |[s] + rest|
          ensures SegmentFaithful(([s] + rest)[k], all)
        {
          if k > 0 {
            assert ([s] + rest)[k] == rest[k - 1];
          }
        }
      } else {
        PrintOthersSegments(bs[1..], all, head, seen);
      }
    }
  }

  lemma FindableBranches(r: Repo)
    requires WellFormed(r)
    ensures Findable(r.branches, r.branches)
  {
    forall b | b in r.branches
      ensures Find(r.branches, b.name) == Some(b)
    {
      var k :| 0 <= k < |r.branches| && r.branches[k] == b;
      FindListed(r.branches, k);
    }
  }

  /** In a well-formed repository every segment is faithful to its branch, each is
      fresh with respect to the ones before it, and every commit of every branch is
      listed somewhere. */
  lemma SegmentsOfWellFormed(r: Repo)
    requires WellFormed(r)
    ensures var segs := Segments(r);
      && SegmentsFresh(segs, [])
      && (forall k :: 0 <= k < |segs| ==> SegmentFaithful(segs[k], r.branches))
      && (forall b, c :: b in r.branches && c in Lineage(b.tip) ==> c.sha in SegmentShas(segs))
  {
    var hb := Find(r.branches, r.head).value;
    var first := PrintBranch(r.head, HeadLineage(r), []);
    var others := PrintOthers(r.branches, r.head, Shas(first.shown));
    var segs := Segments(r);
    assert segs == [first] + others;
    FindableBranches(r);
    PrintBranchSegment(hb, []);
    PrintOthersSegments(r.branches, r.branches, r.head, Shas(first.shown));
    assert [] + Shas(first.shown) == Shas(first.shown);
    assert segs[1..] == others;
    assert SegmentShas(segs) == Shas(first.shown) + SegmentShas(others);
    forall k | 0 <= k < |segs|
      ensures SegmentFaithful(segs[k], r.branches)
    {
      if k > 0 {
        assert segs[k] == others[k - 1];
      }
    }
    forall b, c | b in r.branches && c in Lineage(b.tip)
      ensures c.sha in SegmentShas(segs)
    {
      if b.name == r.head {
        assert Find(r.branches, b.name) == Some(b);
      }
    }
  }

  /** Within each branch segment the listed commits start at the branch tip and keep
      the lineage's tip-to-root order. */
  lemma SegmentsKeepLineageOrder(r: Repo)
    requires WellFormed(r)
    ensures forall k :: 0 <= k < |Segments(r)| ==> SegmentFaithful(Segments(r)[k], r.branches)
  {
    SegmentsOfWellFormed(r);
  }

  // ---------------------------------------------------------------------------
  // The flat listing
  // ---------------------------------------------------------------------------

  /** If the entry at `i` is a header, the next entry is the tip of the branch it names. */
  predicate AnchoredAt(s: seq<Entry>, bs: seq<Branch>, i: int)
    requires 0 <= i < |s|
  {
    s[i].Header? ==>
      (&& i + 1 < |s|
       && s[i + 1].Item?
       && Find(bs, s[i].branch).Some?
       && s[i + 1].commit == Find(bs, s[i].branch).value.tip)
  }

  /** Every header is immediately followed by the tip of the branch it names. */
  predicate HeadersAnchored(s: seq<Entry>, bs: seq<Branch>) {
    forall i :: 0 <= i < |s| ==> AnchoredAt(s, bs, i)
  }

  /** If the entry at `j` is a commit that does not directly follow a header, its id
      is neither among the `seen` ids nor listed earlier. */
  predicate FreshAt(s: seq<Entry>, seen: seq<Sha>, j: int)
    requires 0 <= j < |s|
  {
    s[j].Item? && !(j > 0 && s[j - 1].Header?) ==>
      && s[j].commit.sha !in seen
      && forall i :: 0 <= i < j && s[i].Item? ==> s[i].commit.sha != s[j].commit.sha
  }

  /** Only commits right under a header may repeat an id listed or seen before. */
  predicate FreshAfter(s: seq<Entry>, seen: seq<Sha>) {
    forall j :: 0 <= j < |s| ==> FreshAt(s, seen, j)
  }

  lemma AnchoredConcat(a: seq<Entry>, b: seq<Entry>, bs: seq<Branch>)
    requires HeadersAnchored(a, bs) && HeadersAnchored(b, bs)
    ensures HeadersAnchored(a + b, bs)
  {
    var s := a + b;
    forall i | 0 <= i < |s|
      ensures AnchoredAt(s, bs, i)
    {
      if i < |a| {
        assert AnchoredAt(a, bs, i);
        assert s[i] == a[i];
        if i + 1 < |a| {
          assert s[i + 1] == a[i + 1];
        }
      } else {
        assert AnchoredAt(b, bs, i - |a|);
        assert s[i] == b[i - |a|];
        if i + 1 < |s| {
          assert s[i + 1] == b[i + 1 - |a|];
        }
      }
    }
  }

  lemma FreshConcatLeft(a: seq<Entry>, b: seq<Entry>, seen: seq<Sha>, j: nat)
    requires j < |a| && FreshAt(a, seen, j)
    ensures FreshAt(a + b, seen, j)
  {
    var s := a + b;
    assert s[j] == a[j];
    if j > 0 {
      assert s[j - 1] == a[j - 1];
    }
    forall i | 0 <= i < j
      ensures s[i] == a[i]
    {
    }
  }

  lemma FreshConcatRight(a: seq<Entry>, b: seq<Entry>, seen: seq<Sha>, m: nat)
    requires 0 < m < |b| && FreshAt(b, seen + ItemShas(a), m)
    requires b[m].Item? && !b[m - 1].Header?
    ensures b[m].commit.sha !in seen
    ensures forall i :: 0 <= i < |a| + m && (a + b)[i].Item? ==> (a + b)[i].commit.sha != b[m].commit.sha
  {
    var s := a + b;
    var x := b[m].commit.sha;
    forall i | 0 <= i < |a| + m && s[i].Item?
      ensures s[i].commit.sha != x
    {
      if i < |a| {
        assert s[i] == a[i];
        ItemShaListed(a, i);
      } else {
        assert s[i] == b[i - |a|];
      }
    }
  }

  lemma FreshConcat(a: seq<Entry>, b: seq<Entry>, seen: seq<Sha>)
    requires FreshAfter(a, seen) && FreshAfter(b, seen + ItemShas(a))
    requires b == [] || b[0].Header?
    ensures FreshAfter(a + b, seen)
  {
    var s := a + b;
    forall j | 0 <= j < |s|
      ensures FreshAt(s, seen, j)
    {
      if j < |a| {
        assert FreshAt(a, seen, j);
        FreshConcatLeft(a, b, seen, j);
      } else if j == |a| {
        assert s[j] == b[0];
      } else {
        var m := j - |a|;
        assert FreshAt(b, seen + ItemShas(a), m);
        assert s[j] == b[m] && s[j - 1] == b[m - 1];
        if b[m].Item? && !b[m - 1].Header? {
          FreshConcatRight(a, b, seen, m);
        }
      }
    }
  }

  lemma RenderAnchored(s: Segment, bs: seq<Branch>)
    requires SegmentFaithful(s, bs)
    ensures HeadersAnchored(Render(s), bs)
  {
    var e := Render(s);
    forall i | 0 <= i < |e|
      ensures AnchoredAt(e, bs, i)
    {
      if i > 0 {
        assert e[i] == Item(s.shown[i - 1]);
      }
    }
  }

  lemma RenderFresh(s: Segment, seen: seq<Sha>)
    requires SegmentFresh(s, seen)
    ensures FreshAfter(Render(s), seen)
  {
    var e := Render(s);
    forall j | 0 <= j < |e|
      ensures FreshAt(e, seen, j)
    {
      if j >= 2 {
        var m := j - 1;
        assert NewAt(s.shown, seen, m);
        assert e[j] == Item(s.shown[m]);
        forall i | 0 <= i < j && e[i].Item?
          ensures e[i].commit.sha != e[j].commit.sha
        {
          assert i > 0;
          assert e[i] == Item(s.shown[i - 1]);
        }
      } else if j == 1 {
        assert e[0].Header?;
      }
    }
  }

  lemma {:induction false} FlattenAnchored(segs: seq<Segment>, bs: seq<Branch>)
    requires forall k :: 0 <= k < |segs| ==> SegmentFaithful(segs[k], bs)
    ensures HeadersAnchored(Flatten(segs), bs)
    decreases |segs|
  {
    if segs != [] {
      RenderAnchored(segs[0], bs);
      FlattenAnchored(segs[1..], bs);
      AnchoredConcat(Render(segs[0]), Flatten(segs[1..]), bs);
    }
  }

  lemma {:induction false} FlattenFresh(segs: seq<Segment>, seen: seq<Sha>)
    requires SegmentsFresh(segs, seen)
    ensures FreshAfter(Flatten(segs), seen)
    decreases |segs|
  {
    if segs != [] {
      RenderFresh(segs[0], seen);
      RenderViews(segs[0]);
      FlattenFresh(segs[1..], seen + Shas(segs[0].shown));
      FreshConcat(Render(segs[0]), Flatten(segs[1..]), seen);
    }
  }

  /** Every header of the listing is immediately followed by its branch's tip, even
      when that tip was already listed under an earlier branch. */
  lemma HeaderFollowedByTip(r: Repo)
    requires WellFormed(r)
    ensures HeadersAnchored(Project(r), r.branches)
  {
    SegmentsOfWellFormed(r);
    FlattenAnchored(Segments(r), r.branches);
  }

  lemma {:induction false} ItemShaListed(s: seq<Entry>, i: nat)
    requires i < |s| && s[i].Item?
    ensures s[i].commit.sha in ItemShas(s)
    decreases i
  {
    if i > 0 {
      ItemShaListed(s[1..], i - 1);
    }
  }

  /** A commit listed twice is, at its later place, a branch tip right under its
      header: commits that are not tips are listed at most once. */
  lemma RepeatsAreTips(r: Repo)
    requires WellFormed(r)
    ensures var s := Project(r);
      forall i, j :: 0 <= i < j < |s| && s[i].Item? && s[j].Item? && s[i].commit.sha == s[j].commit.sha ==>
        s[j - 1].Header?
  {
    var s := Project(r);
    SegmentsOfWellFormed(r);
    FlattenFresh(Segments(r), []);
    forall i, j | 0 <= i < j < |s| && s[i].Item? && s[j].Item? && s[i].commit.sha == s[j].commit.sha
      ensures s[j - 1].Header?
    {
      assert FreshAt(s, [], j);
    }
  }

  /** Every commit on the lineage of any branch is listed at least once. */
  lemma EveryCommitListed(r: Repo)
    requires WellFormed(r)
    ensures forall b, c :: b in r.branches && c in Lineage(b.tip) ==> c.sha in ItemShas(Project(r))
  {
    SegmentsOfWellFormed(r);
    FlattenViews(Segments(r));
  }

  /** A listed commit comes from one of the segments. */
  lemma {:induction false} FlattenItemFrom(segs: seq<Segment>, c: Commit)
    requires Item(c) in Flatten(segs)
    ensures exists k :: 0 <= k < |segs| && c in segs[k].shown
    decreases |segs|
  {
    if Item(c) in Render(segs[0]) {
      var i :| 0 <= i < |Render(segs[0])| && Render(segs[0])[i] == Item(c);
      assert c == segs[0].shown[i - 1];
    } else {
      FlattenItemFrom(segs[1..], c);
      var k :| 0 <= k < |segs[1..]| && c in segs[1..][k].shown;
      assert segs[k + 1] == segs[1..][k];
    }
  }

  /** Whatever the listing offers for checkout is a commit of the repository. */
  lemma ListedIsReachable(r: Repo, c: Commit)
    requires WellFormed(r) && Item(c) in Project(r)
    ensures Reachable(r.branches, c)
  {
    SegmentsOfWellFormed(r);
    FlattenItemFrom(Segments(r), c);
    var k :| 0 <= k < |Segments(r)| && c in Segments(r)[k].shown;
    var s := Segments(r)[k];
    assert SegmentFaithful(s, r.branches);
    var b := Find(r.branches, s.branch).value;
    SubsequenceElements(s.shown, Lineage(b.tip));
  }

  /** A repository with one branch over a root commit lists that branch and commit. */
  lemma ProjectSingleRoot(r: Repo)
    requires |r.branches| == 1 && r.branches[0].name == r.head && r.branches[0].tip.parent.None?
    ensures Project(r) == [Header(r.head), Item(r.branches[0].tip)]
  {
    var c := r.branches[0].tip;
    assert HeadLineage(r) == [c];
    assert Shown([c], c.sha, []) == [c];
    var first := Segment(r.head, [c]);
    assert PrintBranch(r.head, HeadLineage(r), []) == first;
    assert Shas(first.shown) == [c.sha];
    assert PrintOthers(r.branches, r.head, [c.sha]) == [] by {
      assert PrintOthers(r.branches[1..], r.head, [c.sha]) == [];
    }
    assert Segments(r) == [first];
    assert Flatten([first]) == Render(first) + Flatten([]);
    assert Items([c]) == [Item(c)];
  }
}

=== FILE: int32.dfy ===
/** The 32-bit integers the window keeps its branch counter in, the parser that
    turns a branch name into one (`Convert.ToInt32(string)`, invariant culture),
    and the printer that turns one back into a name (`int.ToString()`). */
module Int32 {
  import opened Wrappers

  const MinValue: int := -0x8000_0000
  const MaxValue: int := 0x7FFF_FFFF
  const Modulus: int := 0x1_0000_0000

  type int32 = x: int | MinValue <= x <= MaxValue

  /** Two's-complement wrap-around of C#'s unchecked `int` arithmetic. */
  function Wrap(x: int): (r: int32)
    ensures (r - x) % Modulus == 0
    ensures MinValue <= x <= MaxValue ==> r == x
  {
    (x - MinValue) % Modulus + MinValue
  }

  /** Why `Convert.ToInt32` rejected a string: `FormatException` or `OverflowException`. */
  datatype ParseError = Format | Overflow

  /** The white space `NumberStyles.Integer` lets surround a number: U+0009..U+000D and U+0020. */
  predicate IsWhite(c: char) {
    c == ' ' || '\t' <= c <= '\r'
  }

  predicate IsDigit(c: char) {
    '0' <= c <= '9'
  }

  predicate AllDigits(s: string) {
    forall i :: 0 <= i < |s| ==> IsDigit(s[i])
  }

  function DigitValue(c: char): nat
    requires IsDigit(c)
  {
    c as int - '0' as int
  }

  function DigitChar(d: nat): (c: char)
    requires d < 10
    ensures IsDigit(c) && DigitValue(c) == d
  {
    ('0' as int + d) as char
  }

  /** The value of a string of decimal digits, most significant first. */
  function DigitsValue(s: string): nat
    requires AllDigits(s)
    decreases |s|
  {
    if s == [] then 0 else DigitsValue(s[..|s| - 1]) * 10 + DigitValue(s[|s| - 1])
  }

  function TrimStart(s: string): (t: string)
    ensures t == [] || !IsWhite(t[0])
    ensures |t| <= |s| && t == s[|s| - |t|..]
    decreases |s|
  {
    if s != [] && IsWhite(s[0]) then TrimStart(s[1..]) else s
  }

  function TrimEnd(s: string): (t: string)
    ensures t == [] || !IsWhite(t[|t| - 1])
    ensures |t| <= |s| && t == s[..|t|]
    decreases |s|
  {
    if s != [] && IsWhite(s[|s| - 1]) then TrimEnd(s[..|s| - 1]) else s
  }

  /** `Convert.ToInt32(s)`: optional white space, an optional `+` or `-`, at least one
      decimal digit, optional white space. A string of any other shape is a format
      error; a well-formed number outside the 32-bit range is an overflow. */
  function Parse(s: string): Result<int32, ParseError> {
    ParseSigned(TrimEnd(TrimStart(s)))
  }

  /** A trimmed number: the sign, if any, then the digits. */
  function ParseSigned(t: string): Result<int32, ParseError> {
    if |t| > 0 && t[0] == '-' then Signed(Magnitude(t[1..]), true)
    else if |t| > 0 && t[0] == '+' then Signed(Magnitude(t[1..]), false)
    else Signed(Magnitude(t), false)
  }

  /** The unsigned part of a number: at least one digit and nothing else. */
  function Magnitude(body: string): Result<nat, ParseError> {
    if body == [] || !AllDigits(body) then Failure(Format) else Success(DigitsValue(body))
  }

  /** Applies the sign and the 32-bit range check; a format error takes precedence. */
  function Signed(m: Result<nat, ParseError>, negative: bool): Result<int32, ParseError> {
    match m
    case Failure(e) => Failure(e)
    case Success(v) =>
      var x: int := if negative then -(v as int) else v;
      if MinValue <= x <= MaxValue then Success(x) else Failure(Overflow)
  }

  /** Decimal digits of a natural number, without leading zeros. */
  function NatString(n: nat): (s: string)
    ensures |s| > 0 && AllDigits(s)
    decreases n
  {
    if n < 10 then [DigitChar(n)] else NatString(n / 10) + [DigitChar(n % 10)]
  }

  /** `int.ToString()` in the invariant culture. */
  function DecimalString(n: int): (s: string)
    ensures |s| > 0 && (s[0] == '-' || IsDigit(s[0]))
    // a minus sign exactly for negative values, digits everywhere else
    ensures s[0] == '-' <==> n < 0
    ensures forall i :: 0 < i < |s| ==> IsDigit(s[i])
  {
    if n < 0 then "-" + NatString(-n) else NatString(n)
  }

  lemma {:induction false} NatStringValue(n: nat)
    ensures DigitsValue(NatString(n)) == n
    decreases n
  {
    if n >= 10 {
      var s := NatString(n);
      var p := NatString(n / 10);
      assert s[..|s| - 1] == p;
      NatStringValue(n / 10);
    }
  }

  lemma NoWhiteInDigits(s: string)
    requires AllDigits(s)
    ensures TrimStart(s) == s && TrimEnd(s) == s
  {
  }

  lemma SignedDigitsUntrimmed(digits: string)
    requires |digits| > 0 && AllDigits(digits)
    ensures TrimEnd(TrimStart("-" + digits)) == "-" + digits
  {
    var s := "-" + digits;
    assert !IsWhite(s[0]);
    assert TrimStart(s) == s;
    assert s[|s| - 1] == digits[|digits| - 1];
    assert !IsWhite(s[|s| - 1]);
  }

  /** Parsing a bare run of digits yields its value when it is in range, and an
      overflow otherwise. */
  lemma ParseDigits(digits: string)
    requires |digits| > 0 && AllDigits(digits)
    ensures DigitsValue(digits) <= MaxValue ==> Parse(digits) == Success(DigitsValue(digits))
    ensures DigitsValue(digits) > MaxValue ==> Parse(digits) == Failure(Overflow)
  {
    NoWhiteInDigits(digits);
    assert digits[0] != '-' && digits[0] != '+';
    assert ParseSigned(digits) == Signed(Magnitude(digits), false);
  }

  /** A string of white space only (the empty string included) is a format error. */
  lemma {:induction false} ParseBlank(s: string)
    requires forall i :: 0 <= i < |s| ==> IsWhite(s[i])
    ensures Parse(s) == Failure(Format)
  {
    BlankTrimmed(s);
  }

  lemma {:induction false} BlankTrimmed(s: string)
    requires forall i :: 0 <= i < |s| ==> IsWhite(s[i])
    ensures TrimStart(s) == []
    decreases |s|
  {
    if s != [] {
      assert IsWhite(s[0]);
      BlankTrimmed(s[1..]);
    }
  }

  lemma SignedNegative(v: nat)
    requires MinValue <= -(v as int)
    ensures Signed(Success(v), true) == Success(-(v as int))
  {
  }

  /** A leading minus sign survives trimming and selects the negative branch. */
  lemma ParseMinusPrefix(digits: string)
    requires |digits| > 0 && AllDigits(digits)
    ensures Parse("-" + digits) == Signed(Magnitude(digits), true)
  {
    var t := "-" + digits;
    assert Parse(t) == ParseSigned(t) by {
      SignedDigitsUntrimmed(digits);
    }
    assert ParseSigned(t) == Signed(Magnitude(digits), true) by {
      assert t[0] == '-' && t[1..] == digits;
    }
  }

  /** Parsing a minus sign followed by digits yields the negated value, when it is in range. */
  lemma ParseNegatedDigits(digits: string, v: nat)
    requires |digits| > 0 && AllDigits(digits) && v == DigitsValue(digits) && MinValue <= -(v as int)
    ensures Parse("-" + digits) == Success(-(v as int))
  {
    ParseMinusPrefix(digits);
    SignedNegative(v);
  }

  /** Printing a 32-bit value as a branch name and parsing the name back gives the value. */
  lemma ParsePrintRoundTrip(n: int32)
    ensures Parse(DecimalString(n)) == Success(n)
  {
    if n < 0 {
      var m: nat := -(n as int);
      NatStringValue(m);
      ParseNegatedDigits(NatString(m), m);
    } else {
      NatStringValue(n);
      ParseDigits(NatString(n));
    }
  }

  /** A printed number is never the default branch's name. */
  lemma DecimalStringIsNotWord(n: int, word: string)
    requires |word| > 0 && word[0] != '-' && !IsDigit(word[0])
    ensures DecimalString(n) != word
  {
  }
}

=== FILE: repository.dfy ===
/** The version store as the window sees it through LibGit2Sharp: commits that
    point at their parent, branches that point at a tip commit, a head, an index
    and a working directory. */
module Repository {
  import opened Wrappers

  /** A commit's identity (its hex object id). */
  type Sha = string

  /** File contents by path: what a commit records and what the working directory holds. */
  type Tree = map<string, string>

  datatype Signature = Signature(name: string, email: string)

  /** The fixed identity every commit of the program is authored and committed with. */
  const Author := Signature("Hrenomantika", "@yashik")

  /** An immutable commit. History is linear, so a commit has at most one parent. */
  datatype Commit = Commit(sha: Sha, message: string, author: Signature, tree: Tree, parent: Option<Commit>)

  /** A name that refers to a commit. */
  datatype Branch = Branch(name: string, tip: Commit)

  /** A repository: its branches in the store's enumeration order, the name of the
      branch HEAD refers to, the index and the working directory. HEAD is unborn
      while no branch carries its name. */
  datatype Repo = Repo(branches: seq<Branch>, head: string, index: Tree, work: Tree)

  /** `branch.Commits`: the commit log from a tip back to the root. */
  function Lineage(c: Commit): (r: seq<Commit>)
    ensures |r| >= 1 && r[0] == c
    ensures c.parent.None? <==> |r| == 1
    decreases c
  {
    match c.parent
    case None => [c]
    case Some(p) => [c] + Lineage(p)
  }

  /** A commit on a lineage has, as its own lineage, the rest of that lineage. */
  lemma {:induction false} LineageSuffix(c: Commit, k: nat)
    requires k < |Lineage(c)|
    ensures Lineage(Lineage(c)[k]) == Lineage(c)[k..]
    decreases c
  {
    if k > 0 {
      LineageSuffix(c.parent.value, k - 1);
    }
  }

  /** A commit reachable from a lineage without repeated ids has one too. */
  lemma AncestorDistinct(c: Commit, d: Commit)
    requires d in Lineage(c) && DistinctShas(Lineage(c))
    ensures DistinctShas(Lineage(d))
  {
    var k :| 0 <= k < |Lineage(c)| && Lineage(c)[k] == d;
    LineageSuffix(c, k);
  }

  function Shas(cs: seq<Commit>): (r: seq<Sha>)
    ensures |r| == |cs|
    ensures forall i :: 0 <= i < |cs| ==> r[i] == cs[i].sha
  {
    if cs == [] then [] else [cs[0].sha] + Shas(cs[1..])
  }

  /** No commit id occurs twice in a lineage (the store is content-addressed, so history has no cycles). */
  predicate DistinctShas(cs: seq<Commit>) {
    forall i, j :: 0 <= i < j < |cs| ==> cs[i].sha != cs[j].sha
  }

  /** `CanonicalName` of a local branch. */
  function Canonical(name: string): string {
    "refs/heads/" + name
  }

  /** Comparing canonical names is comparing the names themselves. */
  lemma CanonicalInjective(a: string, b: string)
    ensures Canonical(a) == Canonical(b) <==> a == b
  {
    if Canonical(a) == Canonical(b) {
      assert a == Canonical(a)[11..];
    }
  }

  function Names(bs: seq<Branch>): (r: seq<string>)
    ensures |r| == |bs|
    ensures forall i :: 0 <= i < |bs| ==> r[i] == bs[i].name
  {
    if bs == [] then [] else [bs[0].name] + Names(bs[1..])
  }

  predicate UniqueNames(bs: seq<Branch>) {
    forall i, j :: 0 <= i < j < |bs| ==> bs[i].name != bs[j].name
  }

  /** The first branch of the enumeration carrying a name. */
  function Find(bs: seq<Branch>, name: string): (r: Option<Branch>)
    ensures r.None? <==> name !in Names(bs)
    ensures r.Some? ==> r.value in bs && r.value.name == name
  {
    if bs == [] then None
    else if bs[0].name == name then Some(bs[0])
    else Find(bs[1..], name)
  }

  /** In a repository whose names are unique, finding a listed branch's name yields that branch. */
  lemma FindListed(bs: seq<Branch>, k: nat)
    requires UniqueNames(bs) && k < |bs|
    ensures Find(bs, bs[k].name) == Some(bs[k])
  {
    if k > 0 {
      FindListed(bs[1..], k - 1);
    }
  }

  /** HEAD is born: it refers to an existing branch, so the repository has commits. */
  predicate HasCommits(r: Repo) {
    r.head in Names(r.branches)
  }

  /** `repo.Head.Commits`: the head branch's lineage, empty while HEAD is unborn. */
  function HeadLineage(r: Repo): seq<Commit> {
    match Find(r.branches, r.head)
    case None => []
    case Some(b) => Lineage(b.tip)
  }

  /** What the store guarantees of an opened repository: unique branch names, a born
      head, and lineages free of repeated commits. */
  predicate WellFormed(r: Repo) {
    && UniqueNames(r.branches)
    && HasCommits(r)
    && forall b :: b in r.branches ==> DistinctShas(Lineage(b.tip))
  }

  /** The commit is reachable from some branch. */
  predicate Reachable(bs: seq<Branch>, c: Commit) {
    exists b :: b in bs && c in Lineage(b.tip)
  }

  /** Every commit id reachable from some branch. */
  function AllShas(bs: seq<Branch>): set<Sha> {
    set b, c | b in bs && c in Lineage(b.tip) :: c.sha
  }

  /** `repo.CreateBranch`: the new branch enters the enumeration at a position the
      store decides (`slot`, clamped to the end); every other branch keeps its place. */
  function InsertBranch(bs: seq<Branch>, b: Branch, slot: nat): (r: seq<Branch>)
    ensures |r| == |bs| + 1
    ensures var k := if slot < |bs| then slot else |bs|; r[k] == b && r[..k] + r[k + 1..] == bs
  {
    var k := if slot < |bs| then slot else |bs|;
    var r := bs[..k] + [b] + bs[k..];
    assert r[..k] + r[k + 1..] == bs;
    r
  }

  /** Where each branch sits after an insertion: those before the insertion point
      stay, the new branch follows, and the rest move up by one. */
  lemma InsertedPosition(bs: seq<Branch>, b: Branch, slot: nat, i: nat)
    requires i < |bs| + 1
    ensures var k := if slot < |bs| then slot else |bs|;
      var r := InsertBranch(bs, b, slot);
      && (i < k ==> r[i] == bs[i])
      && (i == k ==> r[i] == b)
      && (i > k ==> r[i] == bs[i - 1])
  {
  }

  /** Inserting a branch adds it and keeps every branch that was there. */
  lemma InsertedMembers(bs: seq<Branch>, b: Branch, slot: nat)
    ensures forall x :: x in InsertBranch(bs, b, slot) <==> x == b || x in bs
  {
    var r := InsertBranch(bs, b, slot);
    var k := if slot < |bs| then slot else |bs|;
    assert r == r[..k] + [b] + r[k + 1..];
    assert r[..k] + r[k + 1..] == bs;
  }

  /** A branch inserted under a name no branch has is what finding that name yields,
      and it keeps names unique when they were. */
  lemma InsertedFound(bs: seq<Branch>, b: Branch, slot: nat)
    requires b.name !in Names(bs)
    ensures b.name in Names(InsertBranch(bs, b, slot))
    ensures Find(InsertBranch(bs, b, slot), b.name) == Some(b)
    ensures UniqueNames(bs) ==> UniqueNames(InsertBranch(bs, b, slot))
  {
    var r := InsertBranch(bs, b, slot);
    var k := if slot < |bs| then slot else |bs|;
    assert r[..k] + r[k + 1..] == bs;
    assert Names(r)[k] == b.name;
    forall i | 0 <= i < k
      ensures r[i].name != b.name
    {
      assert r[i] == (r[..k] + r[k + 1..])[i];
      assert Names(bs)[i] == r[i].name;
    }
    FindFirst(r, b.name, k);
    if UniqueNames(bs) {
      forall i, j | 0 <= i < j < |r|
        ensures r[i].name != r[j].name
      {
        InsertedPosition(bs, b, slot, i);
        InsertedPosition(bs, b, slot, j);
        if i == k {
          assert Names(bs)[j - 1] == r[j].name;
        } else if j == k {
          assert Names(bs)[i] == r[i].name;
        }
      }
    }
  }

  /** Finding a name yields the first branch carrying it. */
  lemma {:induction false} FindFirst(bs: seq<Branch>, name: string, k: nat)
    requires k < |bs| && bs[k].name == name
    requires forall i :: 0 <= i < k ==> bs[i].name != name
    ensures Find(bs, name) == Some(bs[k])
    decreases k
  {
    if k > 0 {
      FindFirst(bs[1..], name, k - 1);
    }
  }

  /** Moving a tip keeps names unique. */
  lemma SetTipKeepsUniqueNames(bs: seq<Branch>, name: string, c: Commit)
    requires UniqueNames(bs)
    ensures UniqueNames(SetTip(bs, name, c))
  {
    var r := SetTip(bs, name, c);
    forall i, j | 0 <= i < j < |r|
      ensures r[i].name != r[j].name
    {
      assert r[i].name == bs[i].name && r[j].name == bs[j].name;
    }
  }

  /** A commit whose id is new on top of a lineage without repeats has a lineage
      without repeats. */
  lemma FreshOnTop(c: Commit)
    requires c.parent.Some? && DistinctShas(Lineage(c.parent.value))
    requires forall k :: 0 <= k < |Lineage(c.parent.value)| ==> Lineage(c.parent.value)[k].sha != c.sha
    ensures DistinctShas(Lineage(c))
  {
    var l := Lineage(c);
    LineageStep(c, 0);
    forall i, j | 0 <= i < j < |l|
      ensures l[i].sha != l[j].sha
    {
      LineageStep(c, j - 1);
      if i > 0 {
        LineageStep(c, i - 1);
      }
    }
  }

  /** Past its first commit, a lineage is the parent's lineage. */
  lemma LineageStep(c: Commit, k: nat)
    requires c.parent.Some? && k < |Lineage(c.parent.value)|
    ensures |Lineage(c)| == |Lineage(c.parent.value)| + 1
    ensures Lineage(c)[k + 1] == Lineage(c.parent.value)[k]
  {
  }

  /** The ids reachable after inserting a branch are those before plus its lineage's. */
  lemma InsertedShas(bs: seq<Branch>, b: Branch, slot: nat)
    ensures AllShas(InsertBranch(bs, b, slot)) == AllShas(bs) + set c | c in Lineage(b.tip) :: c.sha
  {
    var r := InsertBranch(bs, b, slot);
    InsertedMembers(bs, b, slot);
    forall x | x in AllShas(r)
      ensures x in AllShas(bs) + set c | c in Lineage(b.tip) :: c.sha
    {
      var y, d :| y in r && d in Lineage(y.tip) && d.sha == x;
      if y != b {
        assert y in bs;
      }
    }
    forall x | x in AllShas(bs)
      ensures x in AllShas(r)
    {
      var y, d :| y in bs && d in Lineage(y.tip) && d.sha == x;
      assert y in r;
    }
    forall x | x in set c | c in Lineage(b.tip) :: c.sha
      ensures x in AllShas(r)
    {
      assert b in r;
    }
  }

  /** Moves the tip of the branch with the given name; every other branch keeps its tip. */
  function SetTip(bs: seq<Branch>, name: string, c: Commit): (r: seq<Branch>)
    ensures Names(r) == Names(bs)
    ensures |r| == |bs|
    ensures forall i :: 0 <= i < |bs| ==> r[i].name == bs[i].name
    ensures forall i :: 0 <= i < |bs| ==> r[i].tip == (if bs[i].name == name then c else bs[i].tip)
  {
    if bs == [] then []
    else [if bs[0].name == name then Branch(name, c) else bs[0]] + SetTip(bs[1..], name, c)
  }

  /** Finding a name after its tip was moved yields the moved tip. */
  lemma {:induction false} FindAfterSetTip(bs: seq<Branch>, name: string, c: Commit)
    requires name in Names(bs)
    ensures Find(SetTip(bs, name, c), name) == Some(Branch(name, c))
    decreases |bs|
  {
    if bs[0].name != name {
      assert Names(bs) == [bs[0].name] + Names(bs[1..]);
      FindAfterSetTip(bs[1..], name, c);
      assert SetTip(bs, name, c)[1..] == SetTip(bs[1..], name, c);
    }
  }
}

=== FILE: session.dfy ===
/** The main window's state machine: the Start/Stop button (`StartRepo`), the
    minutely job (`ScheduleMethod`) and the checkout button (`LoadCommit`), each
    followed by the reload of the commit listing. */
module Session {
  import opened Wrappers
  import opened Int32
  import opened Repository
  import opened BranchCounter
  import opened History
  import opened Checkout
  import opened Snapshot

  /** Stopped, or watching an opened repository with the branch counter and the
      listing on screen. */
  datatype Window = Idle | Watching(repo: Repo, counter: int32, list: seq<Entry>)

  /** "Путь хрень" for a missing folder, or the exception `LoadBrunches` raised. */
  datatype StartError = InvalidPath | Counter(reason: CounterError)

  /** The window after a press of the button, the repository as left in the folder
      (nothing when the folder was not touched), and the error shown or raised. */
  datatype Toggle = Toggle(window: Window, disk: Option<Repo>, error: Option<StartError>)

  /** The listing is what `LoadCommits` would show for the repository on screen. */
  predicate Consistent(w: Window) {
    w.Watching? ==> HasCommits(w.repo) && w.list == Project(w.repo)
  }

  /** `StartRepo`. `dir` is the folder the path names, nothing when it does not exist. */
  function StartRepo(w: Window, dir: Option<Folder>, sha: Sha, slot: nat): (t: Toggle)
    // a second press stops watching and leaves the repository as it is
    ensures w.Watching? ==> t == Toggle(Idle, Some(w.repo), None)
    ensures w.Idle? && dir.None? ==> t == Toggle(Idle, None, Some(InvalidPath))
    ensures w.Idle? && dir.Some? ==>
      && t.disk == Some(EnsureGitIsInit(dir.value, sha, slot))
      && (t.window.Watching? <==> t.error.None?)
      && (t.error.Some? ==> t.window == Idle && t.error.value.Counter? && t.error.value.reason.MalformedBranchName?)
      && (t.window.Watching? ==>
        && t.window.repo == t.disk.value
        && t.window.list == Project(t.window.repo)
        && NextBranchNumber(Names(t.window.repo.branches)) == Success(t.window.counter))
  {
    match w
    case Watching(repo, _, _) => Toggle(Idle, Some(repo), None)
    case Idle =>
      match dir
      case None => Toggle(Idle, None, Some(InvalidPath))
      case Some(f) =>
        var repo := EnsureGitIsInit(f, sha, slot);
        match NextBranchNumber(Names(repo.branches))
        case Failure(e) => Toggle(Idle, Some(repo), Some(Counter(e)))
        case Success(n) => Toggle(Watching(repo, n, Project(repo)), Some(repo), None)
  }

  /** Starting yields a consistent window, and pressing twice on a folder that opens
      cleanly stops again with the initialised repository left behind. */
  lemma StartStop(dir: Folder, sha: Sha, slot: nat)
    ensures Consistent(StartRepo(Idle, Some(dir), sha, slot).window)
    ensures var t := StartRepo(Idle, Some(dir), sha, slot);
      t.window.Watching? ==> StartRepo(t.window, Some(dir), sha, slot) == Toggle(Idle, t.disk, None)
  {
  }

  /** Watching a new folder: the listing is the default branch over its initial
      commit, and the first branch made by a checkout will be called "2". */
  lemma StartOnPlainFolder(files: Tree, sha: Sha, slot: nat)
    ensures var t := StartRepo(Idle, Some(Plain(files)), sha, slot);
      var initial := Commit(sha, InitialMessage, Author, map[MarkerPath := MarkerContent], None);
      && t.window == Watching(t.disk.value, 2, [Header(DefaultBranch), Item(initial)])
      && CounterName(t.window.counter) == "2"
  {
    var r := EnsureGitIsInit(Plain(files), sha, slot);
    InitPlainFolder(files, sha, slot);
    assert Names(r.branches) == [DefaultBranch];
    DefaultOnlyCountsTwo();
    ProjectSingleRoot(r);
    assert DecimalString(2) == "2";
  }

  /** The job's first run on a new folder backs up its files: any file besides the
      marker makes the run commit the whole folder on top of the initial commit. */
  lemma FirstTickBacksUpFolder(files: Tree, sha: Sha, slot: nat, sha2: Sha, message: string, p: string)
    requires p in files && p != MarkerPath
    ensures var t := StartRepo(Idle, Some(Plain(files)), sha, slot);
      var w2 := Tick(t.window, sha2, message);
      && t.window.Watching? && w2.Watching? && w2 != t.window
      && HeadLineage(w2.repo)[0].tree == files[MarkerPath := MarkerContent]
      && HeadLineage(w2.repo)[1..] == HeadLineage(t.window.repo)
  {
    var t := StartRepo(Idle, Some(Plain(files)), sha, slot);
    StartOnPlainFolder(files, sha, slot);
    var r := t.window.repo;
    InitPlainFolder(files, sha, slot);
    var tip := Find(r.branches, r.head).value.tip;
    assert tip.tree == map[MarkerPath := MarkerContent];
    assert r.work != tip.tree by {
      assert p in r.work && p !in tip.tree;
    }
    ChangedIffDiffers(r, tip.tree);
    SnapshotExtendsHead(r, sha2, message);
  }

  /** `ScheduleMethod`: one run of the job while watching, the listing reloaded after
      a commit. A refused empty commit leaves the index staged and the listing as it
      is; an unborn head leaves the window as it is. */
  function Tick(w: Window, sha: Sha, message: string): (w2: Window)
    ensures w.Idle? ==> w2 == Idle
    ensures w.Watching? ==> w2.Watching? && w2.counter == w.counter
    ensures w.Watching? && HasCommits(w.repo) ==>
      (w2 == w <==> Schedule(w.repo, sha, message) == Success(NoChange))
    // a failing run reloads nothing and moves no branch
    ensures w.Watching? && Schedule(w.repo, sha, message).Failure? ==>
      w2.list == w.list && w2.repo.branches == w.repo.branches && w2.repo.head == w.repo.head
    // the window holds the repository the run leaves: the snapshot's, or the staged one
    ensures w.Watching? && Schedule(w.repo, sha, message).Success? && Schedule(w.repo, sha, message).value.Committed? ==>
      w2.repo == Schedule(w.repo, sha, message).value.repo
    ensures w.Watching? && Schedule(w.repo, sha, message).Failure? && Schedule(w.repo, sha, message).error.EmptyCommit? ==>
      w2.repo == Schedule(w.repo, sha, message).error.staged
    ensures Consistent(w) ==> Consistent(w2)
  {
    match w
    case Idle => Idle
    case Watching(repo, counter, list) =>
      match Schedule(repo, sha, message)
      case Success(Committed(r2, c)) =>
        SnapshotExtendsHead(repo, sha, message);
        SnapshotCommitIsNew(repo, sha, message);
        Watching(r2, counter, Project(r2))
      case Failure(EmptyCommit(staged)) =>
        ProjectIgnoresIndex(repo, staged);
        Watching(staged, counter, list)
      case _ => w
  }

  /** The listing depends on the branches and the head only. */
  lemma ProjectIgnoresIndex(r: Repo, s: Repo)
    requires s.branches == r.branches && s.head == r.head
    ensures Project(s) == Project(r)
  {
    assert HeadLineage(s) == HeadLineage(r);
    assert Segments(s) == Segments(r);
  }

  /** The repository after a snapshot differs from the one before: its head has
      one more commit. */
  lemma SnapshotCommitIsNew(r: Repo, sha: Sha, message: string)
    requires Schedule(r, sha, message).Success? && Schedule(r, sha, message).value.Committed?
    ensures Schedule(r, sha, message).value.repo != r
    ensures HasCommits(Schedule(r, sha, message).value.repo)
  {
    var o := Schedule(r, sha, message).value;
    SnapshotExtendsHead(r, sha, message);
    assert |HeadLineage(o.repo)| == |HeadLineage(r)| + 1;
  }

  /** The window and the exception after a click on the checkout button. */
  datatype Clicked = Clicked(window: Window, error: Option<CheckoutError>)

  /** `LoadCommit` with what the listing has selected. Only a commit entry does
      anything; a header or no selection returns at once. */
  function Click(w: Window, selected: Option<Entry>, sw: Switch, slot: nat): (c: Clicked)
    ensures c.window.Watching? <==> w.Watching?
    // without a commit selected the click does nothing
    ensures w.Idle? || selected.None? || selected.value.Header? ==> c == Clicked(w, None)
    // an exception leaves the listing, the counter and the checked-out state on screen;
    // at most the counter-named branch has been added
    ensures c.error.Some? ==> w.Watching? && c.window == Watching(w.repo.(branches := c.window.repo.branches), w.counter, w.list)
    ensures c.error.Some? ==>
      && selected.Some? && selected.value.Item?
      && AtMostCreated(w.repo.branches, w.counter, selected.value.commit, slot, c.window.repo.branches)
    // a click that raises nothing keeps every branch: it checks out a tip's branch with
    // the counter kept, or adds the counter-named branch at the selection and advances
    // the counter
    ensures w.Watching? && selected.Some? && selected.value.Item? && c.error.None? ==>
      KeptOrAdvanced(w.repo.branches, w.counter, selected.value.commit, slot, c.window.repo.branches, c.window.counter)
    // a click that raises nothing leaves the listing in step with the repository
    ensures Consistent(w) && c.error.None? ==> Consistent(c.window)
    // and, when names are unique, the head's tip is the selected commit
    ensures w.Watching? && UniqueNames(w.repo.branches) && selected.Some? && selected.value.Item? && c.error.None? ==>
      HasCommits(c.window.repo) && Find(c.window.repo.branches, c.window.repo.head).value.tip.sha == selected.value.commit.sha
  {
    if w.Idle? || selected.None? || selected.value.Header? then Clicked(w, None)
    else Pick(w, selected.value.commit, sw, slot)
  }

  /** The click on a commit entry while watching. When checkout raises, the listing
      is not reloaded. */
  function Pick(w: Window, target: Commit, sw: Switch, slot: nat): (c: Clicked)
    requires w.Watching?
    ensures c.window.Watching?
    ensures c.error.Some? ==>
      && c.window == Watching(w.repo.(branches := c.window.repo.branches), w.counter, w.list)
      && AtMostCreated(w.repo.branches, w.counter, target, slot, c.window.repo.branches)
    ensures c.error.None? ==>
      && Consistent(c.window)
      && KeptOrAdvanced(w.repo.branches, w.counter, target, slot, c.window.repo.branches, c.window.counter)
    ensures UniqueNames(w.repo.branches) && c.error.None? ==>
      HasCommits(c.window.repo) && Find(c.window.repo.branches, c.window.repo.head).value.tip.sha == target.sha
  {
    var o := LoadCommit(w.repo, w.counter, target, sw, slot);
    CheckoutReachesTarget(w.repo, w.counter, target, sw, slot);
    Clicked(Watching(o.repo, o.counter, if o.error.None? then Project(o.repo) else w.list), o.error)
  }

  /** Picking a commit from a consistent listing of a well-formed repository keeps
      the repository well-formed, whatever the checkout does. */
  lemma ClickKeepsWellFormed(w: Window, selected: Option<Entry>, sw: Switch, slot: nat)
    requires Consistent(w) && (w.Watching? ==> WellFormed(w.repo))
    requires selected.Some? && selected.value in (if w.Watching? then w.list else [])
    ensures var c := Click(w, selected, sw, slot);
      c.window.Watching? ==> WellFormed(c.window.repo)
  {
    var c := Click(w, selected, sw, slot);
    if w.Watching? && selected.value.Item? {
      var target := selected.value.commit;
      var o := LoadCommit(w.repo, w.counter, target, sw, slot);
      assert c.window.repo == o.repo;
      ListedIsReachable(w.repo, target);
      CheckoutKeepsWellFormed(w.repo, w.counter, target, sw, slot);
    } else {
      assert c == Clicked(w, None);
    }
  }
}

=== FILE: snapshot.dfy ===
/** `Schedule` and `EnsureGitIsInit`: the minutely snapshot of the working directory
    onto the head branch, and the initial commit of a folder that has none. */
module Snapshot {
  import opened Wrappers
  import opened Repository
  import opened BranchCounter

  /** A path's content in a tree, or nothing when the tree has no such path. */
  function Get(t: Tree, p: string): Option<string> {
    if p in t then Some(t[p]) else None
  }

  /** The diff reports a path: the index differs from the tip there, or the working
      directory differs from the index. A path that neither the tip nor the working
      directory holds is reported unmodified, even when the index has it. */
  predicate Reported(r: Repo, tip: Tree, p: string) {
    && (Get(tip, p).Some? || Get(r.work, p).Some?)
    && (Get(r.index, p) != Get(tip, p) || Get(r.work, p) != Get(r.index, p))
  }

  /** `repo.Diff.Compare<TreeChanges>(tip, Index | WorkingDirectory).Count > 0`: the
      tip-to-index diff merged with the index-to-working-directory diff reports some
      path. A working-directory target makes the diff include untracked files. */
  predicate Changed(r: Repo, tip: Tree) {
    exists p :: p in tip.Keys + r.work.Keys && Reported(r, tip, p)
  }

  /** Any difference between the working directory and the tip is reported; once
      everything is staged, the diff is empty exactly when the working directory
      holds the tip's files and nothing else. */
  lemma ChangedIffDiffers(r: Repo, tip: Tree)
    ensures r.work != tip ==> Changed(r, tip)
    ensures r.index == r.work ==> (Changed(r, tip) <==> r.work != tip)
  {
    if r.work != tip {
      var p;
      if r.work.Keys != tip.Keys {
        p :| (p in r.work.Keys) != (p in tip.Keys);
      } else {
        p :| p in r.work && r.work[p] != tip[p];
      }
      assert Get(r.work, p) != Get(tip, p);
      assert Reported(r, tip, p);
    }
  }

  /** A staged change the working directory undoes is reported: the index holds
      other content than the tip for a path where the working directory agrees with
      the tip. */
  lemma StagedChangeReported(r: Repo, tip: Tree, p: string)
    requires p in tip && p in r.work && r.work[p] == tip[p]
    requires Get(r.index, p) != Get(tip, p)
    ensures Changed(r, tip)
  {
    assert Reported(r, tip, p);
  }

  /** Why a run of the job raised: `repo.Head.Tip` is null while the head is unborn,
      and `repo.Commit` refuses a commit whose tree is its parent's
      (`EmptyCommitException`), after `Stage("*")` has updated the index. */
  datatype SnapshotError = NoTip | EmptyCommit(staged: Repo)

  /** Nothing to commit, or the commit made and the repository after it. */
  datatype Snapshot = NoChange | Committed(repo: Repo, commit: Commit)

  /** One run of the recurring job. `sha` is the id the store gives the new commit and
      `message` the date-and-time text it carries. */
  function Schedule(r: Repo, sha: Sha, message: string): (o: Result<Snapshot, SnapshotError>)
    ensures o == Failure(NoTip) <==> !HasCommits(r)
    ensures o == Success(NoChange) <==> HasCommits(r) && !Changed(r, Find(r.branches, r.head).value.tip.tree)
    // a reported difference that staging undoes: everything is staged, then the commit is refused
    ensures (o.Failure? && o.error.EmptyCommit?) <==>
      HasCommits(r) && Changed(r, Find(r.branches, r.head).value.tip.tree) && r.work == Find(r.branches, r.head).value.tip.tree
    ensures o.Failure? && o.error.EmptyCommit? ==> o.error.staged == r.(index := r.work) && r.index != r.work
    ensures o.Success? && o.value.Committed? ==>
      var tip := Find(r.branches, r.head).value.tip;
      var c := o.value.commit;
      // every change, tracked or not, is staged and recorded on top of the old tip
      && c == Commit(sha, message, Author, r.work, Some(tip))
      && c.tree != tip.tree
      && o.value.repo.index == r.work && o.value.repo.work == r.work
      // only the head branch moves
      && o.value.repo.head == r.head
      && Names(o.value.repo.branches) == Names(r.branches)
      && (forall i :: 0 <= i < |r.branches| && r.branches[i].name != r.head ==> o.value.repo.branches[i] == r.branches[i])
  {
    match Find(r.branches, r.head)
    case None => Failure(NoTip)
    case Some(b) =>
      if !Changed(r, b.tip.tree) then Success(NoChange)
      else if r.work == b.tip.tree then
        assert r.index != r.work by {
          ChangedIffDiffers(r, b.tip.tree);
        }
        Failure(EmptyCommit(r.(index := r.work)))
      else
        var c := Commit(sha, message, Author, r.work, Some(b.tip));
        Success(Committed(Repo(SetTip(r.branches, r.head, c), r.head, r.work, r.work), c))
  }

  /** After a refused empty commit everything is staged: the next run finds nothing. */
  lemma EmptyCommitThenQuiet(r: Repo, sha: Sha, message: string, sha2: Sha, message2: string)
    requires Schedule(r, sha, message).Failure? && Schedule(r, sha, message).error.EmptyCommit?
    ensures Schedule(Schedule(r, sha, message).error.staged, sha2, message2) == Success(NoChange)
  {
    var s := Schedule(r, sha, message).error.staged;
    assert Find(s.branches, s.head) == Find(r.branches, r.head);
    ChangedIffDiffers(s, Find(r.branches, r.head).value.tip.tree);
  }

  /** A snapshot extends the head's log by exactly the new commit. */
  lemma SnapshotExtendsHead(r: Repo, sha: Sha, message: string)
    requires Schedule(r, sha, message).Success? && Schedule(r, sha, message).value.Committed?
    ensures var o := Schedule(r, sha, message).value;
      HeadLineage(o.repo) == [o.commit] + HeadLineage(r)
  {
    FindAfterSetTip(r.branches, r.head, Schedule(r, sha, message).value.commit);
  }

  /** Right after a snapshot the working directory matches the head: the next run
      commits nothing, whatever it would be called. */
  lemma SnapshotIdempotent(r: Repo, sha: Sha, message: string, sha2: Sha, message2: string)
    requires Schedule(r, sha, message).Success? && Schedule(r, sha, message).value.Committed?
    ensures Schedule(Schedule(r, sha, message).value.repo, sha2, message2) == Success(NoChange)
  {
    var o := Schedule(r, sha, message).value;
    FindAfterSetTip(r.branches, r.head, o.commit);
    assert Names(o.repo.branches) == Names(r.branches);
  }

  /** A file the head's tip does not have, created in the working directory, is
      snapshotted: the next run commits it, untracked as it was. */
  lemma NewFileCommitted(r: Repo, sha: Sha, message: string, p: string, content: string)
    requires HasCommits(r)
    requires p !in Find(r.branches, r.head).value.tip.tree
    ensures var o := Schedule(r.(work := r.work[p := content]), sha, message);
      && o.Success? && o.value.Committed?
      && p in o.value.commit.tree && o.value.commit.tree[p] == content
  {
    var r2 := r.(work := r.work[p := content]);
    var tip := Find(r.branches, r.head).value.tip.tree;
    assert Find(r2.branches, r2.head) == Find(r.branches, r.head);
    assert p in r2.work && p !in tip;
    ChangedIffDiffers(r2, tip);
  }

  /** With an id the repository has not used, a snapshot keeps the repository well-formed. */
  lemma SnapshotKeepsWellFormed(r: Repo, sha: Sha, message: string)
    requires WellFormed(r) && sha !in AllShas(r.branches)
    requires Schedule(r, sha, message).Success? && Schedule(r, sha, message).value.Committed?
    ensures WellFormed(Schedule(r, sha, message).value.repo)
  {
    var o := Schedule(r, sha, message).value;
    var bs := o.repo.branches;
    var tip := Find(r.branches, r.head).value.tip;
    SetTipKeepsUniqueNames(r.branches, r.head, o.commit);
    assert DistinctShas(Lineage(o.commit)) by {
      forall k | 0 <= k < |Lineage(tip)|
        ensures Lineage(tip)[k].sha != sha
      {
        assert Lineage(tip)[k].sha in AllShas(r.branches);
      }
      FreshOnTop(o.commit);
    }
    forall x | x in bs
      ensures DistinctShas(Lineage(x.tip))
    {
      var i :| 0 <= i < |bs| && bs[i] == x;
      if r.branches[i].name != r.head {
        assert x == r.branches[i];
      }
    }
  }

  /** What `Repository.Init` leaves: a plain folder becomes a repository whose head is
      the unborn default branch; a repository is left as it is. */
  datatype Folder = Plain(files: Tree) | Versioned(repo: Repo)

  function Init(f: Folder): (r: Repo)
    // a new repository has no commits yet and nothing staged; the folder's files are untracked
    ensures f.Plain? ==> !HasCommits(r) && r.head == DefaultBranch && r.index == map[] && r.work == f.files
  {
    match f
    case Plain(files) => Repo([], DefaultBranch, map[], files)
    case Versioned(repo) => repo
  }

  /** The marker file the initial commit records. */
  const MarkerPath := ".hr"
  const MarkerContent := "by YashikMoloka"
  const InitialMessage := "Initial"

  /** `EnsureGitIsInit`: a repository without commits gets the marker file, staged
      alone, and one commit of it on the head's branch. `sha` is the new commit's id
      and `slot` where the store enumerates the branch it creates. */
  function EnsureGitIsInit(f: Folder, sha: Sha, slot: nat): (r: Repo)
    ensures HasCommits(r)
    ensures HasCommits(Init(f)) ==> r == Init(f)
    ensures !HasCommits(Init(f)) ==>
      var c := Find(r.branches, r.head).value.tip;
      && r.head == Init(f).head
      && c == Commit(sha, InitialMessage, Author, Init(f).index[MarkerPath := MarkerContent], None)
      && r.work == Init(f).work[MarkerPath := MarkerContent]
      && r.index == c.tree
      // the branches already present are kept; only the head's branch is created
      && r.branches == InsertBranch(Init(f).branches, Branch(r.head, c), slot)
  {
    var repo := Init(f);
    if HasCommits(repo) then repo
    else
      var index := repo.index[MarkerPath := MarkerContent];
      var c := Commit(sha, InitialMessage, Author, index, None);
      var nb := Branch(repo.head, c);
      var bs := InsertBranch(repo.branches, nb, slot);
      InsertedFound(repo.branches, nb, slot);
      Repo(bs, repo.head, index, repo.work[MarkerPath := MarkerContent])
  }

  /** Initialising makes exactly one new commit, with no parent: the ids reachable
      afterwards are those before plus the new one. */
  lemma InitAddsOneCommit(f: Folder, sha: Sha, slot: nat)
    requires !HasCommits(Init(f))
    ensures AllShas(EnsureGitIsInit(f, sha, slot).branches) == AllShas(Init(f).branches) + {sha}
  {
    var repo := Init(f);
    var c := Commit(sha, InitialMessage, Author, repo.index[MarkerPath := MarkerContent], None);
    assert EnsureGitIsInit(f, sha, slot).branches == InsertBranch(repo.branches, Branch(repo.head, c), slot);
    InsertedShas(repo.branches, Branch(repo.head, c), slot);
    RootShas(c);
  }

  /** A root commit's log holds its own id only. */
  lemma RootShas(c: Commit)
    requires c.parent.None?
    ensures (set d | d in Lineage(c) :: d.sha) == {c.sha}
  {
    assert Lineage(c) == [c];
  }

  /** Initialising twice is initialising once: the second run finds commits and does nothing. */
  lemma InitIdempotent(f: Folder, sha: Sha, slot: nat, sha2: Sha, slot2: nat)
    ensures var r := EnsureGitIsInit(f, sha, slot); EnsureGitIsInit(Versioned(r), sha2, slot2) == r
  {
  }

  /** A new folder comes out well-formed, with the initial commit as its one branch. */
  lemma InitPlainFolder(files: Tree, sha: Sha, slot: nat)
    ensures var r := EnsureGitIsInit(Plain(files), sha, slot);
      && WellFormed(r)
      && r.branches == [Branch(DefaultBranch, Commit(sha, InitialMessage, Author, map[MarkerPath := MarkerContent], None))]
      && r.work == files[MarkerPath := MarkerContent]
  {
    var r := EnsureGitIsInit(Plain(files), sha, slot);
    assert Lineage(r.branches[0].tip) == [r.branches[0].tip];
  }
}

=== FILE: wrappers.dfy ===
/** Failure-carrying result types shared by every module of the model. */
module Wrappers {

  /** A value that may be absent: a missing branch tip, an unborn head. */
  datatype Option<+T> = None | Some(value: T)

  /** The outcome of an operation that can raise: the value, or the error it raised. */
  datatype Result<+R, +E> = Success(value: R) | Failure(error: E)
}
